=== FILE: README.md ===
# Musikalisches Würfelspiel: the score generator core in Dafny

`wurfelspiel.py` turns a seed into a two-voice minuet score in the style of
Mozart's dice game (K516f). The seed is written in base 11 as sixteen digits,
least significant first. Each digit picks one pre-composed measure out of a
column of a fixed 11 × 8 table. The first-half table serves digits 0–7; digit 7
picks the two alternative endings `<id>.1` and `<id>.2`. The second-half table
serves digits 8–15. The measures are looked up in the note map of a LilyPond
template. Each voice is written out as:

1. a `\repeat volta 2` block with the first seven measures;
2. the `\alternative` endings;
3. a `\mark "Trio"`;
4. the eight second-half measures;
5. the final bar.

The template's `#id#` placeholder is then replaced by the piece's identity text,
`<seed+1>: <digit+1>, …`.

The model is written as pure functions over `nat`, `seq<nat>` and `string`. Its
modules:

- `Digits`: `get_factors` and `get_parts`. Base-11 digits and their value. A loop
  version of `get_parts`.
- `Fragments`: the two constant tables, the repeat endings, and distinctness
  within each measure's column.
- `Text`: the Python string operations used: `join`, `str(n)` and
  `str.replace`. It also defines a one-character split. The source never
  splits text this way; the split is used to state the line layout of a voice
  and to read the identity text back.
- `Header`: `update_header` and the status line built with it.
- `Template`: the split and pairing layer of `parse_score`, and the measure
  pair its notes map holds.
- `Voice`: `generate_part`, and a line-by-line reference layout of a voice.
- `Errors`: the failures, as a `Result` type.
- `Score`: `generate_score`, on a given digit list or from a seed.

How Python's exceptions map to the model:

- The tuple unpacking after `re.split` fails unless there are exactly three
  landmark matches. The model returns `SectionCount(pieces)`.
- `re.findall(...)[0]` on an empty list becomes `SpacerMissing`.
- A `KeyError` on the notes map becomes `FragmentNotFound(id)` for the first
  missing identifier, in the order the source looks them up:
  - measures 0–6;
  - the two endings of measure 7;
  - measures 8–15.

Notes on the source:

- A voice's measures are joined by a newline followed by the spacer
  (wurfelspiel.py:128 and 138).
- The Trio line keeps its backslash (wurfelspiel.py:136). Python leaves the
  unknown escape `\m` alone, so the line is `| \mark "Trio"`.
- A malformed template raises one of two errors. The tuple unpacking after
  `re.split` fails (wurfelspiel.py:39-45), or `re.findall(...)[0]` raises an
  `IndexError` (wurfelspiel.py:53).
- Seeds are not checked for sign (wurfelspiel.py:91). Here seeds are `nat`.

## Model

| member | source | states |
|---|---|---|
| Digits.Factors | wurfelspiel.py:91-95 | `get_factors(n)` is non-empty and every entry is a base-11 digit. The last digit is non-zero when n > 0. For n = 0 the list is `[0]`. |
| Digits.FactorsValue | wurfelspiel.py:91-95 | Reading the digits of `get_factors(n)` as Σ f[i]·11^i gives back n. |
| Digits.FactorsLength | wurfelspiel.py:91-95 | For every k ≥ 1, `get_factors(n)` has at most k digits exactly when n < 11^k. |
| Digits.Parts | wurfelspiel.py:108-115 | `get_parts` for a supplied number. No ensures of its own; characterised by `Digits.PartsCorrect`, `Digits.PartsOfValue` and `Digits.ComputeParts`. |
| Digits.PartsCorrect | wurfelspiel.py:108-115 | For every seed the source can decompose, `get_parts` yields exactly 16 base-11 digits. They spell n mod 11^16, which is n itself when n < 11^16. |
| Digits.PartsOfValue | wurfelspiel.py:108-115 | The other direction of the round trip: 16 digits, read as a seed and fed to `get_parts`, come back unchanged. |
| Digits.PartsBoundaries | wurfelspiel.py:108-115 | Seed 0 gives sixteen zeros. Seed 11^16 − 1 gives sixteen tens. |
| Digits.ValueInjective | wurfelspiel.py:108-115 | Two digit lists of the same length spell the same seed only if they are equal. |
| Digits.ComputeParts | wurfelspiel.py:108-115 | A loop of sixteen remainder/quotient steps computes exactly the padded or truncated `get_parts` list. |
| Fragments.FirstHalfFragment | wurfelspiel.py:59-72 | The lookup is total on measure < 8 and digit < 11, indexed `[part][measure]`. It yields a three-digit identifier. |
| Fragments.SecondHalfFragment | wurfelspiel.py:75-88 | The same for the second-half table. |
| Fragments.TableCorners | wurfelspiel.py:59-88 | The corner entries of the tables: first half 096 (digit 0, measure 0) and 005 (digit 10, measure 7); second half 070 and 131. |
| Fragments.IdStringRoundTrip | wurfelspiel.py:59-88 | A three-digit identifier is read back as the table number it was written from. |
| Fragments.RepeatEndings | wurfelspiel.py:157-160 | Both endings are five characters long: the first-half identifier of measure 7 for the digit, followed by ".1" and ".2" respectively. They differ from each other and from any three-digit identifier. |
| Fragments.FirstHalfColumnDistinct | wurfelspiel.py:60-71 | In every measure's column of the first-half table, the eleven identifiers are pairwise different. |
| Fragments.SecondHalfColumnDistinct | wurfelspiel.py:76-87 | The same for the second-half table. |
| Fragments.FirstHalfFragmentInjective | wurfelspiel.py:59-72 | A first-half fragment determines the digit that chose it. |
| Fragments.SecondHalfFragmentInjective | wurfelspiel.py:75-88 | A second-half fragment determines the digit that chose it. |
| Fragments.RepeatEndingsInjective | wurfelspiel.py:157-160 | The first ending determines the digit of measure 7. |
| Text.JoinWith | wurfelspiel.py:121 | `str.join`, as used for the identity text (line 121) and for a voice's measures (lines 128 and 138). No ensures of its own. Characterised by `Text.JoinAppend`: joining two non-empty lists is joining each and putting the separator between. Also by `Text.SplitJoin`: splitting at a one-character separator undoes the join. |
| Text.Replace | wurfelspiel.py:119-122 | `str.replace` for a non-empty pattern. No ensures of its own; characterised by `Text.ReplaceAbsent` and `Text.ReplaceFirst`, with `Text.ReplaceRemovesAll` for the result. |
| Text.ReplaceRemovesAll | wurfelspiel.py:119-122 | After `replace`, no occurrence of the pattern is left. The replacement must be non-empty and share no character with the pattern. |
| Text.ReplaceAbsent | wurfelspiel.py:119-122 | A text without the pattern is returned unchanged by `replace`. |
| Text.ReplaceFirst | wurfelspiel.py:119-122 | `replace` keeps the text before the first occurrence, substitutes the occurrence, and continues after it. |
| Text.NatToString | wurfelspiel.py:121 | `str(n)` is non-empty and made of decimal digits. It starts with `0` only when it is exactly `0`, for n = 0. With `Text.ParseNatToString`, which reads it back as n, this characterises it fully. |
| Text.ParseNatToString | wurfelspiel.py:121 | `str(n)` is read back as n. |
| Header.IdText | wurfelspiel.py:121 | The identity text is non-empty. It consists only of decimal digits, `:`, `,` and space. |
| Header.UpdateHeader | wurfelspiel.py:118-122 | No `#id#` remains after `update_header`. |
| Header.UpdateHeaderAbsent | wurfelspiel.py:118-122 | A header without `#id#` is returned unchanged. |
| Header.UpdateHeaderSingle | wurfelspiel.py:118-122 | A single `#id#`, preceded by text without `#`, is replaced in place. Everything around it is kept. |
| Header.UpdateHeaderWhole | wurfelspiel.py:118-122 | A header that is just `#id#` becomes the identity text. |
| Header.IdTextInjective | wurfelspiel.py:121 | Equal identity texts come from the same number and the same digits. |
| Header.FirstPieceIdentity | wurfelspiel.py:118-122 | Number 0 with sixteen zero digits is shown as `1: 1, 1, …, 1` with sixteen ones. |
| Header.StatusTextShape | wurfelspiel.py:246 | The status line is `Musikalisches Würfelspiel (K516f) No. ` followed by the identity text. |
| Voice.GeneratePart | wurfelspiel.py:125-139 | `generate_part`, term by term. No ensures of its own; characterised by `Voice.GeneratePartLines`, `Voice.VoiceSplitsIntoLines` and `Voice.VoiceReadsOneStaff`. |
| Voice.GeneratePartLines | wurfelspiel.py:125-139 | `generate_part` equals the newline join of the voice's lines: the repeat opening; the first-half texts with `}` on the last; the alternative opening; the two endings; the closing brace; the Trio mark; the second-half texts; the final bar. Every line starts with the spacer. |
| Voice.VoiceSplitsIntoLines | wurfelspiel.py:125-139 | With a single-line spacer and texts, splitting the voice at newlines gives exactly those lines. There are 7 + max(1, first) + max(1, second) of them. |
| Voice.VoiceReadsOneStaff | wurfelspiel.py:128-138 | A voice reads only staff `half` of every measure. |
| Template.SplitFromRejoins | wurfelspiel.py:39-45 | The capturing split yields 2·matches + 1 pieces. The odd pieces are the matches. The pieces concatenate back to the text. |
| Template.SplitTemplate | wurfelspiel.py:39-45 | The seven-way unpacking succeeds exactly when there are three matches, otherwise it fails with the piece count. Header through footer concatenate to the whole text, and the separators are the three matches. |
| Template.ZipNotes | wurfelspiel.py:47-51 | The notes dict comprehension. No ensures of its own; characterised by `Template.ZipNotesKeys` and `Template.ZipNotesValue`. |
| Template.ZipNotesKeys | wurfelspiel.py:47-51 | The notes map's keys are exactly the upper-staff identifiers among the zipped positions. The lower-staff identifiers are never read. |
| Template.ZipNotesValue | wurfelspiel.py:47-51 | Each identifier maps to the upper/lower texts at its last zipped position: a later duplicate overwrites an earlier one. |
| Template.ParseScore | wurfelspiel.py:38-56 | `parse_score` succeeds exactly when there are three landmark matches and at least one spacer match. Either failure is reported. The spacer is the first match. |
| Template.ParseScoreSections | wurfelspiel.py:38-56 | `parse_score` returns exactly the header, the three separators and the footer of the split. Together with the two staves they make up the text in order. The notes map pairs the two staves found between the separators. |
| Score.LookupAll | wurfelspiel.py:152-165 | Looking up a list of identifiers succeeds exactly when all are keys, and yields their measures position by position. Otherwise it fails at the first missing identifier. |
| Score.ScoreIdsChosen | wurfelspiel.py:152-165 | The needed identifiers are: digits 0–6 through the first-half table with measure = position; the two endings of digit 7; digits 8–15 through the second-half table with measure = position − 8. |
| Score.GenerateScore | wurfelspiel.py:142-175 | `generate_score` succeeds exactly when every needed identifier is a key. Otherwise it fails with the first missing one. It returns `parts` and `number` unchanged. |
| Score.GenerateScoreSucceeds | wurfelspiel.py:152-165 | Success is equivalent to every table-chosen fragment being in the notes map. |
| Score.Assemble | wurfelspiel.py:167-173 | The concatenation of the generated score. No ensures of its own; characterised by `Score.GenerateScoreText`. |
| Score.GenerateScoreText | wurfelspiel.py:167-173 | The score is the identified header, then separator 1, the upper voice, separator 2, the lower voice, separator 3 and the footer. Both voices are laid out from the same chosen measures. |
| Score.ScoreIdsInjective | wurfelspiel.py:152-165 | Different digit lists need different identifier lists. |
| Score.SeedsChooseDifferentFragments | wurfelspiel.py:108-115 | Two different seeds below 11^16 choose different fragments for some measure. |
| Score.GenerateFromSeed | wurfelspiel.py:142-175 | Generating from a seed returns the seed unchanged with 16 digits that spell it modulo 11^16. Without three landmark matches it fails. |

## Left out

- Rendering (`generate_song`, wurfelspiel.py:178-211): the LilyPond, TiMidity and ffmpeg runs are process invocations with opaque outputs.
- Publishing (`tweet_generated_song`, wurfelspiel.py:214-248): the Twitter/OAuth flow, dotenv storage and the `input()` prompt are network and credential I/O. Only the status text at line 246 is modelled, as `Header.StatusText`.
- The `.current` counter file (wurfelspiel.py:99-107): this is file I/O. Only `get_parts` with a supplied number is modelled.
- Reading `score.ly` (wurfelspiel.py:146-147) and the `random.randint` seed (wurfelspiel.py:251-255): both are inputs here. The template text and the seed are parameters.
- The regular expressions (wurfelspiel.py:33-35, 39-45, 53) are not modelled; their results are inputs instead:
  - the landmark matches of `re.split` are given as spans;
  - `get_notes` is a function parameter from a staff's text to its (identifier, text) entries;
  - the spacer matches are given as a list of strings.
- `Template.ParseScore`: which text the patterns actually match is not stated. Only what is done with the matches is stated.
- `Digits.Factors`: no recursion-depth bound is modelled. The source recurses once per base-11 digit, so under Python's default limit of 1000 frames it raises `RecursionError` for seeds of about 1000 or more base-11 digits (roughly n ≥ 11^997), far above 11^16. The model returns sixteen digits for every natural number.
- Negative seeds: Python's `get_factors` would return a negative "digit" for them. Here seeds are natural numbers.
- `generate_score` with explicit `parts` is modelled only for lists of sixteen digits, each at most 10 (`Score.ValidParts`). For other lists the source behaves as follows:
  - an empty list is falsy, so the source takes the `get_parts(number)` path (wurfelspiel.py:143-144);
  - lists of length 1–7 raise `IndexError` at `parts[7]` (wurfelspiel.py:158);
  - lists of 17 or more entries raise `IndexError` at measure index 8 of the second table (wurfelspiel.py:162-165);
  - entries above 10 raise `IndexError` in the table lookup;
  - lists of length 8–15 raise nothing: the source emits a score with fewer second-half measures. They are excluded to keep the sixteen-digit scope, not because the source rejects them;
  - `number=None` together with explicit `parts` fails in `update_header` with a `TypeError`.
- `Fragments.FirstHalfColumnDistinct`: the two tables together hold each of the identifiers 001–176 exactly once. Only the weaker per-column distinctness is proved, which is what makes the digit-to-fragment choice injective.
- `Header.UpdateHeader`: for headers with several placeholders, the text is characterised only through `Text.Replace` and `Text.ReplaceFirst`. The contract states that none is left.

=== FILE: digits.dfy ===
/**
  The number-to-digits converter: a seed becomes base-11 digits, least
  significant first (`get_factors`), and the digit list is then padded with
  zeros or truncated to exactly sixteen entries (`get_parts`).
 */
module Digits {

  /** The fixed length of a digit sequence. */
  const Width: nat := 16

  /** 11^16: the number of distinct sixteen-digit sequences. */
  const Modulus: nat := 45949729863572161

  lemma ModulusIsPower()
    ensures Pow11(Width) == Modulus
  {
    assert Pow11(8) == 214358881;
    PowAdd(8, 8);
  }

  lemma {:induction false} PowAdd(a: nat, b: nat)
    ensures Pow11(a + b) == Pow11(a) * Pow11(b)
  {
    if a > 0 {
      PowAdd(a - 1, b);
      assert Pow11(a + b) == 11 * Pow11(a - 1 + b);
    }
  }

  function Pow11(k: nat): (p: nat)
    ensures p >= 1
  {
    if k == 0 then 1 else 11 * Pow11(k - 1)
  }

  /** Every entry is a base-11 digit. */
  predicate IsDigits(ds: seq<nat>)
  {
    forall i :: 0 <= i < |ds| ==> ds[i] < 11
  }

  /** The number a little-endian base-11 digit sequence stands for: the sum of ds[i] * 11^i. */
  function Value(ds: seq<nat>): nat
  {
    if |ds| == 0 then 0 else ds[0] + 11 * Value(ds[1..])
  }

  /** `count` copies of `d`. */
  function Repeat(d: nat, count: nat): (r: seq<nat>)
    ensures |r| == count
    ensures forall i :: 0 <= i < count ==> r[i] == d
  {
    if count == 0 then [] else [d] + Repeat(d, count - 1)
  }

  /**
    `get_factors`: the remainder modulo 11, then the digits of the quotient;
    a number below 11 is its own single digit.
   */
  function Factors(n: nat): (ds: seq<nat>)
    ensures |ds| >= 1
    ensures IsDigits(ds)
    ensures n > 0 ==> ds[|ds| - 1] != 0
    ensures n == 0 ==> ds == [0]
    decreases n
  {
    if n < 11 then [n] else [n % 11] + Factors(n / 11)
  }

  /** The digits of `get_factors` spell the number back. */
  lemma {:induction false} FactorsValue(n: nat)
    ensures Value(Factors(n)) == n
    decreases n
  {
    if n >= 11 {
      FactorsValue(n / 11);
      assert Factors(n)[1..] == Factors(n / 11);
    }
  }

  /** `get_parts` for a supplied number: keep the first sixteen digits, or pad with zeros on the right. */
  function Parts(n: nat): (ds: seq<nat>)
  {
    var factors := Factors(n);
    if |factors| > Width then factors[..Width]
    else factors + Repeat(0, Width - |factors|)
  }

  /** A digit sequence is bounded by the power of 11 of its length. */
  lemma {:induction false} ValueBound(ds: seq<nat>)
    requires IsDigits(ds)
    ensures Value(ds) < Pow11(|ds|)
    decreases |ds|
  {
    if |ds| > 0 {
      ValueBound(ds[1..]);
      assert Value(ds[1..]) <= Pow11(|ds| - 1) - 1;
      assert 11 * Value(ds[1..]) <= 11 * Pow11(|ds| - 1) - 11;
    }
  }

  /** Splitting a digit sequence: the high part is weighted by 11^|lo|. */
  lemma {:induction false} ValueAppend(lo: seq<nat>, hi: seq<nat>)
    ensures Value(lo + hi) == Value(lo) + Pow11(|lo|) * Value(hi)
    decreases |lo|
  {
    if |lo| > 0 {
      assert (lo + hi)[1..] == lo[1..] + hi;
      ValueAppend(lo[1..], hi);
      calc {
        Value(lo + hi);
        lo[0] + 11 * Value(lo[1..] + hi);
        lo[0] + 11 * (Value(lo[1..]) + Pow11(|lo| - 1) * Value(hi));
        { assert 11 * (Pow11(|lo| - 1) * Value(hi)) == (11 * Pow11(|lo| - 1)) * Value(hi); }
        Value(lo) + Pow11(|lo|) * Value(hi);
      }
    } else {
      assert lo + hi == hi;
    }
  }

  /** Trailing zero digits do not change the value. */
  lemma {:induction false} ValueZeros(count: nat)
    ensures Value(Repeat(0, count)) == 0
  {
    if count > 0 {
      assert Repeat(0, count)[1..] == Repeat(0, count - 1);
      ValueZeros(count - 1);
    }
  }

  /** The all-tens sequence is the largest value of its length. */
  lemma {:induction false} ValueTens(count: nat)
    ensures Value(Repeat(10, count)) == Pow11(count) - 1
  {
    if count > 0 {
      assert Repeat(10, count)[1..] == Repeat(10, count - 1);
      ValueTens(count - 1);
    }
  }

  /** Euclidean division is unique: a value written as a + m*b with 0 <= a < m has remainder a. */
  lemma ModUnique(n: nat, m: nat, a: nat, b: nat)
    requires m > 0 && a < m && n == a + m * b
    ensures n % m == a && n / m == b
  {
    var q, r := n / m, n % m;
    assert m * (q - b) == a - r;
    MulSmall(m, q - b);
  }

  /** The only multiple of m strictly between -m and m is zero. */
  lemma MulSmall(m: int, k: int)
    requires m > 0 && -m < m * k < m
    ensures k == 0
  {
    if k >= 1 {
      MulMono(m, 1, k);
    } else if k <= -1 {
      MulMono(m, k, -1);
    }
  }

  lemma MulMono(m: int, a: int, b: int)
    requires m >= 0 && a <= b
    ensures m * a <= m * b
  {
    assert m * b - m * a == m * (b - a);
  }

  /** Two digit sequences of the same length denote the same number only if they are equal. */
  lemma {:induction false} ValueInjective(a: seq<nat>, b: seq<nat>)
    requires IsDigits(a) && IsDigits(b) && |a| == |b|
    requires Value(a) == Value(b)
    ensures a == b
    decreases |a|
  {
    if |a| > 0 {
      ModUnique(Value(a), 11, a[0], Value(a[1..]));
      ModUnique(Value(b), 11, b[0], Value(b[1..]));
      ValueInjective(a[1..], b[1..]);
      assert a == [a[0]] + a[1..];
      assert b == [b[0]] + b[1..];
    }
  }

  /** A number has at most k digits exactly when it is below 11^k. */
  lemma {:induction false} FactorsLength(n: nat, k: nat)
    requires k >= 1
    ensures |Factors(n)| <= k <==> n < Pow11(k)
    decreases n
  {
    Pow11AtLeast(k);
    if n >= 11 {
      var q := n / 11;
      ModUnique(n, 11, n % 11, q);
      assert |Factors(n)| == 1 + |Factors(q)|;
      if k == 1 {
        assert |Factors(q)| >= 1;
      } else {
        FactorsLength(q, k - 1);
        ScaleBound(n % 11, q, Pow11(k - 1));
      }
    }
  }

  /** With r a digit, r + 11q stays below 11p exactly when q stays below p. */
  lemma ScaleBound(r: nat, q: nat, p: nat)
    requires r < 11
    ensures r + 11 * q < 11 * p <==> q < p
  {
  }

  lemma {:induction false} Pow11AtLeast(k: nat)
    requires k >= 1
    ensures Pow11(k) >= 11
  {
    if k > 1 {
      Pow11AtLeast(k - 1);
    }
  }

  /**
    `get_parts` always yields sixteen base-11 digits, and they spell the
    seed modulo 11^16: the seed itself whenever it is below 11^16.
   */
  lemma PartsCorrect(n: nat)
    ensures |Parts(n)| == Width
    ensures IsDigits(Parts(n))
    ensures Value(Parts(n)) == n % Modulus
    ensures n < Modulus ==> Value(Parts(n)) == n
  {
    if |Factors(n)| > Width {
      PartsTruncated(n);
    } else {
      PartsPadded(n);
    }
  }

  lemma PartsTruncated(n: nat)
    requires |Factors(n)| > Width
    ensures Value(Parts(n)) == n % Modulus
    ensures n >= Modulus
  {
    var factors := Factors(n);
    var lo, hi := factors[..Width], factors[Width..];
    ModulusIsPower();
    assert factors == lo + hi;
    ValueAppend(lo, hi);
    ValueBound(lo);
    FactorsValue(n);
    FactorsLength(n, Width);
    ModUnique(n, Modulus, Value(lo), Value(hi));
  }

  lemma PartsPadded(n: nat)
    requires |Factors(n)| <= Width
    ensures Value(Parts(n)) == n == n % Modulus
    ensures n < Modulus
  {
    ValuePadded(Factors(n), Width - |Factors(n)|);
    FactorsValue(n);
    FactorsLength(n, Width);
    ModulusIsPower();
    SmallMod(n, Modulus);
  }

  /** Zeros on the right do not change the value. */
  lemma ValuePadded(ds: seq<nat>, k: nat)
    ensures Value(ds + Repeat(0, k)) == Value(ds)
  {
    ValueAppend(ds, Repeat(0, k));
    ValueZeros(k);
  }

  lemma SmallMod(n: nat, m: nat)
    requires n < m
    ensures n % m == n
  {
  }

  /** The other direction of the round trip: sixteen digits read as a seed give the same sixteen digits back. */
  lemma PartsOfValue(ds: seq<nat>)
    requires |ds| == Width && IsDigits(ds)
    ensures Parts(Value(ds)) == ds
  {
    ValueBound(ds);
    ModulusIsPower();
    PartsCorrect(Value(ds));
    ValueInjective(Parts(Value(ds)), ds);
  }

  /** Seed 0 gives sixteen zeros and seed 11^16 - 1 gives sixteen tens. */
  lemma PartsBoundaries()
    ensures Parts(0) == Repeat(0, Width)
    ensures Parts(Modulus - 1) == Repeat(10, Width)
  {
    assert Factors(0) == [0];
    assert [0] + Repeat(0, Width - 1) == Repeat(0, Width);
    ValueTens(Width);
    ModulusIsPower();
    PartsOfValue(Repeat(10, Width));
  }

  /**
    `get_parts` without recursion: sixteen rounds of "emit the remainder,
    keep the quotient" fill the fixed-width digit list directly, and the
    result is exactly that of the recursive definition.
   */
  method ComputeParts(n: nat) returns (ds: seq<nat>)
    ensures ds == Parts(n)
  {
    ds := [];
    var m := n;
    while |ds| < Width
      invariant |ds| <= Width
      invariant IsDigits(ds)
      invariant Value(ds) + Pow11(|ds|) * m == n
    {
      var d, q := m % 11, m / 11;
      EmitDigit(ds, d, q);
      ds := ds + [d];
      m := q;
    }
    DigitsOfSeed(ds, m, n);
  }

  /** One round of the loop keeps "digits so far + 11^|ds| * quotient" equal to the seed. */
  lemma EmitDigit(ds: seq<nat>, d: nat, q: nat)
    ensures Value(ds + [d]) + Pow11(|ds| + 1) * q == Value(ds) + Pow11(|ds|) * (d + 11 * q)
  {
    ValueAppend(ds, [d]);
    assert Value([d]) == d by { assert [d][1..] == []; }
    Distribute(Pow11(|ds|), d, q);
  }

  /** Sixteen digits plus 11^16 times a quotient that add up to the seed are the seed's `get_parts`. */
  lemma DigitsOfSeed(ds: seq<nat>, m: nat, n: nat)
    requires |ds| == Width && IsDigits(ds)
    requires Value(ds) + Pow11(Width) * m == n
    ensures ds == Parts(n)
  {
    ValueBound(ds);
    ModulusIsPower();
    ModUnique(n, Modulus, Value(ds), m);
    PartsCorrect(n);
    ValueInjective(ds, Parts(n));
  }

  lemma Distribute(p: nat, a: nat, b: nat)
    ensures p * (a + 11 * b) == p * a + (11 * p) * b
  {
  }
}

=== FILE: errors.dfy ===
/**
  How a score generation can fail, and the failure-compatible result type
  the model uses in place of Python's exceptions.
 */
module Errors {

  /** The exceptions the generator can raise on a well-formed seed. */
  datatype Error =
    /** The template did not split into seven pieces (the tuple unpacking in `parse_score` fails). */
    | SectionCount(pieces: nat)
    /** The template holds no spacer in front of a `\clef` (indexing `[0]` of an empty list). */
    | SpacerMissing
    /** A fragment identifier is not a key of the notes map (`KeyError`). */
    | FragmentNotFound(id: string)

  /** Either a value or the error that stopped the computation. */
  datatype Result<+T> = Success(value: T) | Failure(error: Error) {
    predicate IsFailure() {
      Failure?
    }

    function PropagateFailure<U>(): Result<U>
      requires Failure?
    {
      Failure(error)
    }

    function Extract(): T
      requires Success?
    {
      value
    }
  }
}

=== FILE: fragments.dfy ===
/**
  The fragment tables of `get_first_half_fragment` and
  `get_second_half_fragment`: two fixed 11 x 8 tables of measure numbers,
  indexed by digit value (row) and measure position (column). The source
  writes each measure number as a three-character string with leading
  zeros ('096'); the tables below hold the numbers and `IdString` renders
  them in that form.
 */
module Fragments {
  import opened Text

  /** Measures per half and rows per table (one row per base-11 digit). */
  const Measures: nat := 8
  const Rows: nat := 11

  /** Rows are digit values 0-10, columns are measures 0-7 of the first half. */
  const FirstHalfTable: seq<seq<nat>> := [
    [96, 22, 141, 41, 105, 122, 11, 30],
    [32, 6, 128, 63, 146, 46, 134, 81],
    [69, 95, 158, 13, 153, 55, 110, 24],
    [40, 17, 113, 85, 161, 2, 159, 100],
    [148, 74, 163, 45, 80, 97, 36, 107],
    [104, 157, 27, 167, 154, 68, 118, 91],
    [152, 60, 171, 53, 99, 133, 21, 127],
    [119, 84, 114, 50, 140, 86, 169, 94],
    [98, 142, 42, 156, 75, 129, 62, 123],
    [3, 87, 165, 61, 135, 47, 147, 33],
    [54, 130, 10, 103, 28, 37, 106, 5]
  ]

  /** Rows are digit values 0-10, columns are measures 0-7 of the second half. */
  const SecondHalfTable: seq<seq<nat>> := [
    [70, 121, 26, 9, 112, 49, 109, 14],
    [117, 39, 126, 56, 174, 18, 116, 83],
    [66, 139, 15, 132, 73, 58, 145, 79],
    [90, 176, 7, 34, 67, 160, 52, 170],
    [25, 143, 64, 125, 76, 136, 1, 93],
    [138, 71, 150, 29, 101, 162, 23, 151],
    [16, 155, 57, 175, 43, 168, 89, 172],
    [120, 88, 48, 166, 51, 115, 72, 111],
    [65, 77, 19, 82, 137, 38, 149, 8],
    [102, 4, 31, 164, 144, 59, 173, 78],
    [35, 20, 108, 92, 12, 124, 44, 131]
  ]

  /** A fragment identifier: exactly three decimal digits. */
  predicate IsFragmentId(id: string)
  {
    |id| == 3 && forall k :: 0 <= k < 3 ==> '0' <= id[k] <= '9'
  }

  /** A measure number below 1000 written with three digits, leading zeros included. */
  function IdString(n: nat): (id: string)
    requires n < 1000
    ensures IsFragmentId(id)
  {
    [DigitChar(n / 100), DigitChar(n / 10 % 10), DigitChar(n % 10)]
  }

  /** The three-digit form reads back as the number it was written from. */
  lemma IdStringRoundTrip(n: nat)
    requires n < 1000
    ensures ParseDecimal(IdString(n)) == n
  {
    var a, b, c := n / 100, n / 10 % 10, n % 10;
    DigitRoundTrip(a);
    DigitRoundTrip(b);
    DigitRoundTrip(c);
    ParseThree(DigitChar(a), DigitChar(b), DigitChar(c));
    DecimalDigitsOf(n);
  }

  /** Reading three characters: hundreds, tens, units. */
  lemma ParseThree(x: char, y: char, z: char)
    ensures ParseDecimal([x, y, z]) == 100 * DigitValue(x) + 10 * DigitValue(y) + DigitValue(z)
  {
    assert [x, y, z][..2] == [x, y];
    assert [x, y][..1] == [x];
    assert [x][..0] == [];
    assert ParseDecimal([x]) == DigitValue(x);
    assert ParseDecimal([x, y]) == 10 * DigitValue(x) + DigitValue(y);
  }

  lemma DecimalDigitsOf(n: nat)
    requires n < 1000
    ensures 100 * (n / 100) + 10 * (n / 10 % 10) + n % 10 == n
  {
  }

  /** Different measure numbers are written differently. */
  lemma IdStringInjective(a: nat, b: nat)
    requires a < 1000 && b < 1000
    requires IdString(a) == IdString(b)
    ensures a == b
  {
    IdStringRoundTrip(a);
    IdStringRoundTrip(b);
  }

  /** A table has one row per digit value and one measure number from 1 to 176 per measure. */
  predicate IsTable(t: seq<seq<nat>>)
  {
    |t| == Rows
    && forall part :: 0 <= part < Rows ==>
         |t[part]| == Measures && forall measure :: 0 <= measure < Measures ==> 1 <= t[part][measure] <= 176
  }

  /** Both constant tables are total on 11 digits x 8 measures. */
  lemma TablesTotal()
    ensures IsTable(FirstHalfTable)
    ensures IsTable(SecondHalfTable)
  {
  }

  /** `get_first_half_fragment(measure, part)`, indexed `[part][measure]`. */
  function FirstHalfFragment(measure: nat, part: nat): (id: string)
    requires measure < Measures && part < Rows
    ensures IsFragmentId(id)
  {
    TablesTotal();
    IdString(FirstHalfTable[part][measure])
  }

  /** `get_second_half_fragment(measure, part)`, indexed `[part][measure]`. */
  function SecondHalfFragment(measure: nat, part: nat): (id: string)
    requires measure < Measures && part < Rows
    ensures IsFragmentId(id)
  {
    TablesTotal();
    IdString(SecondHalfTable[part][measure])
  }

  /** The corners of both tables, as the source writes them. */
  lemma TableCorners()
    ensures FirstHalfFragment(0, 0) == "096" && FirstHalfFragment(7, 10) == "005"
    ensures SecondHalfFragment(0, 0) == "070" && SecondHalfFragment(7, 10) == "131"
  {
    TablesTotal();
    assert FirstHalfTable[0][0] == 96 && FirstHalfTable[10][7] == 5;
    assert SecondHalfTable[0][0] == 70 && SecondHalfTable[10][7] == 131;
  }

  /**
    The two alternative endings of the repeat: the first-half identifier of
    measure 7 with ".1" and ".2" appended. Neither can be confused
    with an ordinary three-digit identifier or with the other.
   */
  function RepeatEndings(part: nat): (ids: (string, string))
    requires part < Rows
    ensures |ids.0| == 5 && |ids.1| == 5
    ensures ids.0[..3] == ids.1[..3] == FirstHalfFragment(Measures - 1, part)
    ensures ids.0[3..] == ".1" && ids.1[3..] == ".2"
    ensures ids.0 != ids.1
    ensures !IsFragmentId(ids.0) && !IsFragmentId(ids.1)
  {
    var id := FirstHalfFragment(Measures - 1, part);
    var ids := (id + ".1", id + ".2");
    assert ids.0[4] != ids.1[4];
    ids
  }

  /** No number occurs twice. */
  predicate Distinct(xs: seq<nat>)
  {
    forall i, j :: 0 <= i < |xs| && 0 <= j < |xs| && xs[i] == xs[j] ==> i == j
  }

  /** The measure numbers of one measure position, one per digit value. */
  function Column(t: seq<seq<nat>>, measure: nat): (col: seq<nat>)
    requires IsTable(t) && measure < Measures
    ensures |col| == Rows
    ensures forall part :: 0 <= part < Rows ==> col[part] == t[part][measure]
  {
    seq(Rows, part requires 0 <= part < Rows => t[part][measure])
  }

  /** Within one measure of the first-half table, different digits name different fragments. */
  lemma FirstHalfColumnDistinct(measure: nat)
    requires measure < Measures
    ensures Distinct(Column(FirstHalfTable, measure))
  {
    if measure == 0 {
      FirstHalfColumn0();
    } else if measure == 1 {
      FirstHalfColumn1();
    } else if measure == 2 {
      FirstHalfColumn2();
    } else if measure == 3 {
      FirstHalfColumn3();
    } else if measure == 4 {
      FirstHalfColumn4();
    } else if measure == 5 {
      FirstHalfColumn5();
    } else if measure == 6 {
      FirstHalfColumn6();
    } else {
      FirstHalfColumn7();
    }
  }

  lemma FirstHalfColumn0()
    ensures Distinct(Column(FirstHalfTable, 0))
  {
    TablesTotal();
    assert Column(FirstHalfTable, 0) == [96, 32, 69, 40, 148, 104, 152, 119, 98, 3, 54];
  }

  lemma FirstHalfColumn1()
    ensures Distinct(Column(FirstHalfTable, 1))
  {
    TablesTotal();
    assert Column(FirstHalfTable, 1) == [22, 6, 95, 17, 74, 157, 60, 84, 142, 87, 130];
  }

  lemma FirstHalfColumn2()
    ensures Distinct(Column(FirstHalfTable, 2))
  {
    TablesTotal();
    assert Column(FirstHalfTable, 2) == [141, 128, 158, 113, 163, 27, 171, 114, 42, 165, 10];
  }

  lemma FirstHalfColumn3()
    ensures Distinct(Column(FirstHalfTable, 3))
  {
    TablesTotal();
    assert Column(FirstHalfTable, 3) == [41, 63, 13, 85, 45, 167, 53, 50, 156, 61, 103];
  }

  lemma FirstHalfColumn4()
    ensures Distinct(Column(FirstHalfTable, 4))
  {
    TablesTotal();
    assert Column(FirstHalfTable, 4) == [105, 146, 153, 161, 80, 154, 99, 140, 75, 135, 28];
  }

  lemma FirstHalfColumn5()
    ensures Distinct(Column(FirstHalfTable, 5))
  {
    TablesTotal();
    assert Column(FirstHalfTable, 5) == [122, 46, 55, 2, 97, 68, 133, 86, 129, 47, 37];
  }

  lemma FirstHalfColumn6()
    ensures Distinct(Column(FirstHalfTable, 6))
  {
    TablesTotal();
    assert Column(FirstHalfTable, 6) == [11, 134, 110, 159, 36, 118, 21, 169, 62, 147, 106];
  }

  lemma FirstHalfColumn7()
    ensures Distinct(Column(FirstHalfTable, 7))
  {
    TablesTotal();
    assert Column(FirstHalfTable, 7) == [30, 81, 24, 100, 107, 91, 127, 94, 123, 33, 5];
  }

  /** Within one measure of the second-half table, different digits name different fragments. */
  lemma SecondHalfColumnDistinct(measure: nat)
    requires measure < Measures
    ensures Distinct(Column(SecondHalfTable, measure))
  {
    if measure == 0 {
      SecondHalfColumn0();
    } else if measure == 1 {
      SecondHalfColumn1();
    } else if measure == 2 {
      SecondHalfColumn2();
    } else if measure == 3 {
      SecondHalfColumn3();
    } else if measure == 4 {
      SecondHalfColumn4();
    } else if measure == 5 {
      SecondHalfColumn5();
    } else if measure == 6 {
      SecondHalfColumn6();
    } else {
      SecondHalfColumn7();
    }
  }

  lemma SecondHalfColumn0()
    ensures Distinct(Column(SecondHalfTable, 0))
  {
    TablesTotal();
    assert Column(SecondHalfTable, 0) == [70, 117, 66, 90, 25, 138, 16, 120, 65, 102, 35];
  }

  lemma SecondHalfColumn1()
    ensures Distinct(Column(SecondHalfTable, 1))
  {
    TablesTotal();
    assert Column(SecondHalfTable, 1) == [121, 39, 139, 176, 143, 71, 155, 88, 77, 4, 20];
  }

  lemma SecondHalfColumn2()
    ensures Distinct(Column(SecondHalfTable, 2))
  {
    TablesTotal();
    assert Column(SecondHalfTable, 2) == [26, 126, 15, 7, 64, 150, 57, 48, 19, 31, 108];
  }

  lemma SecondHalfColumn3()
    ensures Distinct(Column(SecondHalfTable, 3))
  {
    TablesTotal();
    assert Column(SecondHalfTable, 3) == [9, 56, 132, 34, 125, 29, 175, 166, 82, 164, 92];
  }

  lemma SecondHalfColumn4()
    ensures Distinct(Column(SecondHalfTable, 4))
  {
    TablesTotal();
    assert Column(SecondHalfTable, 4) == [112, 174, 73, 67, 76, 101, 43, 51, 137, 144, 12];
  }

  lemma SecondHalfColumn5()
    ensures Distinct(Column(SecondHalfTable, 5))
  {
    TablesTotal();
    assert Column(SecondHalfTable, 5) == [49, 18, 58, 160, 136, 162, 168, 115, 38, 59, 124];
  }

  lemma SecondHalfColumn6()
    ensures Distinct(Column(SecondHalfTable, 6))
  {
    TablesTotal();
    assert Column(SecondHalfTable, 6) == [109, 116, 145, 52, 1, 23, 89, 72, 149, 173, 44];
  }

  lemma SecondHalfColumn7()
    ensures Distinct(Column(SecondHalfTable, 7))
  {
    TablesTotal();
    assert Column(SecondHalfTable, 7) == [14, 83, 79, 170, 93, 151, 172, 111, 8, 78, 131];
  }

  /** The first-half fragment of a measure determines the digit that chose it. */
  lemma FirstHalfFragmentInjective(measure: nat, p1: nat, p2: nat)
    requires measure < Measures && p1 < Rows && p2 < Rows
    requires FirstHalfFragment(measure, p1) == FirstHalfFragment(measure, p2)
    ensures p1 == p2
  {
    TablesTotal();
    IdStringInjective(FirstHalfTable[p1][measure], FirstHalfTable[p2][measure]);
    FirstHalfColumnDistinct(measure);
    assert Column(FirstHalfTable, measure)[p1] == Column(FirstHalfTable, measure)[p2];
  }

  /** The second-half fragment of a measure determines the digit that chose it. */
  lemma SecondHalfFragmentInjective(measure: nat, p1: nat, p2: nat)
    requires measure < Measures && p1 < Rows && p2 < Rows
    requires SecondHalfFragment(measure, p1) == SecondHalfFragment(measure, p2)
    ensures p1 == p2
  {
    TablesTotal();
    IdStringInjective(SecondHalfTable[p1][measure], SecondHalfTable[p2][measure]);
    SecondHalfColumnDistinct(measure);
    assert Column(SecondHalfTable, measure)[p1] == Column(SecondHalfTable, measure)[p2];
  }

  /** The endings of measure 7 determine the digit that chose them. */
  lemma RepeatEndingsInjective(p1: nat, p2: nat)
    requires p1 < Rows && p2 < Rows
    requires RepeatEndings(p1).0 == RepeatEndings(p2).0
    ensures p1 == p2
  {
    FirstHalfFragmentInjective(Measures - 1, p1, p2);
  }
}

=== FILE: header.dfy ===
/**
  The identity substitution of `update_header`: every `#id#` in a header
  becomes "<number+1>: " followed by the digits plus one, joined by ", ".
  The same routine produces the status text posted with a rendering.
 */
module Header {
  import opened Text
  import Digits

  /** The placeholder the template and the status text carry. */
  const Placeholder: string := "#id#"

  /** Characters an identity text is made of. */
  const IdChars: set<char> := DecimalDigits + {':', ',', ' '}

  /** The digits as shown to people: each one plus one, in decimal. */
  function DisplayedParts(parts: seq<nat>): (ds: seq<string>)
    ensures |ds| == |parts|
  {
    seq(|parts|, i requires 0 <= i < |parts| => NatToString(parts[i] + 1))
  }

  /** The identity text: the number plus one, a colon and a space, then the displayed digits separated by a comma and a space. */
  function IdText(number: nat, parts: seq<nat>): (s: string)
    ensures |s| > 0
    ensures OnlyChars(s, IdChars)
  {
    JoinChars(", ", DisplayedParts(parts), IdChars);
    NatToString(number + 1) + ": " + JoinWith(", ", DisplayedParts(parts))
  }

  /** `update_header`: every placeholder replaced by the identity text; none is left afterwards. */
  function UpdateHeader(header: string, number: nat, parts: seq<nat>): (h: string)
    ensures !Contains(h, Placeholder)
  {
    ReplaceRemovesAll(header, Placeholder, IdText(number, parts));
    Replace(header, Placeholder, IdText(number, parts))
  }

  /** A header without the placeholder is returned unchanged. */
  lemma UpdateHeaderAbsent(header: string, number: nat, parts: seq<nat>)
    requires !Contains(header, Placeholder)
    ensures UpdateHeader(header, number, parts) == header
  {
    ReplaceAbsent(header, Placeholder, IdText(number, parts));
  }

  /** A single placeholder, after text with no '#', is replaced in place and everything around it kept. */
  lemma UpdateHeaderSingle(before: string, after: string, number: nat, parts: seq<nat>)
    requires '#' !in before
    requires !Contains(after, Placeholder)
    ensures UpdateHeader(before + Placeholder + after, number, parts) == before + IdText(number, parts) + after
  {
    var s := before + Placeholder + after;
    forall i: nat | i < |before|
      ensures !OccursAt(s, Placeholder, i)
    {
      assert s[i] == before[i];
      assert before[i] in before;
      if i + |Placeholder| <= |s| {
        assert s[i..i + |Placeholder|][0] == s[i];
      }
    }
    ReplaceFirst(before, Placeholder, after, IdText(number, parts));
    ReplaceAbsent(after, Placeholder, IdText(number, parts));
  }

  /** The status line posted with a rendering (wurfelspiel.py:246). */
  const StatusTemplate: string := "Musikalisches W\U{FC}rfelspiel (K516f) No. #id#"

  function StatusText(number: nat, parts: seq<nat>): string
  {
    UpdateHeader(StatusTemplate, number, parts)
  }

  /** The status line is the fixed title followed by the identity text. */
  lemma StatusTextShape(number: nat, parts: seq<nat>)
    ensures StatusText(number, parts) == "Musikalisches W\U{FC}rfelspiel (K516f) No. " + IdText(number, parts)
  {
    var title := "Musikalisches W\U{FC}rfelspiel (K516f) No. ";
    assert StatusTemplate == title + Placeholder + "";
    forall i: nat
      ensures !OccursAt("", Placeholder, i)
    {
    }
    UpdateHeaderSingle(title, "", number, parts);
  }

  /** Number 0 with sixteen zero digits is shown as piece 1 with sixteen ones (written in groups of four). */
  lemma FirstPieceIdentity()
    ensures UpdateHeader(Placeholder, 0, Digits.Repeat(0, 16))
         == "1: " + (("1, 1, 1, 1" + ", " + "1, 1, 1, 1") + ", " + ("1, 1, 1, 1" + ", " + "1, 1, 1, 1"))
  {
    FirstPieceIdText();
    UpdateHeaderWhole(0, Digits.Repeat(0, 16));
  }

  lemma FirstPieceIdText()
    ensures IdText(0, Digits.Repeat(0, 16))
         == "1: " + (("1, 1, 1, 1" + ", " + "1, 1, 1, 1") + ", " + ("1, 1, 1, 1" + ", " + "1, 1, 1, 1"))
  {
    DisplayedZeros(16);
    JoinEightOnes();
    assert Ones(16) == Ones(8) + Ones(8);
    JoinAppend(", ", Ones(8), Ones(8));
    assert NatToString(1) == "1";
  }

  /** `k` copies of the text "1". */
  function Ones(k: nat): (ones: seq<string>)
    ensures |ones| == k
  {
    seq(k, i => "1")
  }

  lemma JoinFourOnes()
    ensures JoinWith(", ", Ones(4)) == "1, 1, 1, 1"
  {
    assert Ones(4) == ["1", "1", "1", "1"];
  }

  lemma JoinEightOnes()
    ensures JoinWith(", ", Ones(8)) == "1, 1, 1, 1" + ", " + "1, 1, 1, 1"
  {
    JoinFourOnes();
    assert Ones(8) == Ones(4) + Ones(4);
    JoinAppend(", ", Ones(4), Ones(4));
  }

  /** A header that is just the placeholder becomes just the identity text. */
  lemma UpdateHeaderWhole(number: nat, parts: seq<nat>)
    ensures UpdateHeader(Placeholder, number, parts) == IdText(number, parts)
  {
    forall i: nat
      ensures !OccursAt("", Placeholder, i)
    {
    }
    assert Placeholder == "" + Placeholder + "";
    UpdateHeaderSingle("", "", number, parts);
  }

  /** Zero digits are displayed as ones. */
  lemma DisplayedZeros(k: nat)
    ensures DisplayedParts(Digits.Repeat(0, k)) == Ones(k)
  {
    assert NatToString(1) == "1";
  }

  /** Two identity texts are equal only for the same number and the same digits. */
  lemma IdTextInjective(n1: nat, p1: seq<nat>, n2: nat, p2: seq<nat>)
    requires IdText(n1, p1) == IdText(n2, p2)
    ensures n1 == n2 && p1 == p2
  {
    IdTextFields(n1, p1);
    IdTextFields(n2, p2);
    ParseNatToString(n1 + 1);
    ParseNatToString(n2 + 1);
    JoinedDigitsInjective(p1, p2);
  }

  /** The number is everything before the first ':', and the joined digits follow ": ". */
  lemma IdTextFields(n: nat, p: seq<nat>)
    ensures SplitOn(IdText(n, p), ':')[0] == NatToString(n + 1)
    ensures IdText(n, p)[|NatToString(n + 1)| + 2..] == JoinWith(", ", DisplayedParts(p))
  {
    var a, j := NatToString(n + 1), JoinWith(", ", DisplayedParts(p));
    NoColon(a);
    assert IdText(n, p) == a + [':'] + (" " + j);
    SplitOnCons(a, ':', " " + j);
  }

  lemma NoColon(s: string)
    requires OnlyChars(s, DecimalDigits)
    ensures ':' !in s && ',' !in s
  {
  }

  /** The ", "-joined displayed digits determine the digits. */
  lemma JoinedDigitsInjective(p1: seq<nat>, p2: seq<nat>)
    requires JoinWith(", ", DisplayedParts(p1)) == JoinWith(", ", DisplayedParts(p2))
    ensures p1 == p2
  {
    if |p1| == 0 || |p2| == 0 {
      NonEmptyJoin(DisplayedParts(p1));
      NonEmptyJoin(DisplayedParts(p2));
    } else {
      NonEmptyDigitsInjective(p1, p2);
    }
  }

  lemma NonEmptyDigitsInjective(p1: seq<nat>, p2: seq<nat>)
    requires |p1| > 0 && |p2| > 0
    requires JoinWith(", ", DisplayedParts(p1)) == JoinWith(", ", DisplayedParts(p2))
    ensures p1 == p2
  {
    CommaPieces(DisplayedParts(p1));
    CommaPieces(DisplayedParts(p2));
    assert |p1| == |PrefixRest(" ", DisplayedParts(p1))| == |p2|;
    forall i | 0 <= i < |p1|
      ensures p1[i] == p2[i]
    {
      PieceDigitEqual(p1, p2, i);
    }
  }

  /** Equal comma pieces hold equal digits. */
  lemma PieceDigitEqual(p1: seq<nat>, p2: seq<nat>, i: nat)
    requires i < |p1| == |p2|
    requires PrefixRest(" ", DisplayedParts(p1)) == PrefixRest(" ", DisplayedParts(p2))
    ensures p1[i] == p2[i]
  {
    var d1, d2 := DisplayedParts(p1), DisplayedParts(p2);
    if i > 0 {
      assert PrefixRest(" ", d1)[i] == " " + d1[i];
      assert PrefixRest(" ", d2)[i] == " " + d2[i];
      assert d1[i] == (" " + d1[i])[1..];
      assert d2[i] == (" " + d2[i])[1..];
    } else {
      assert PrefixRest(" ", d1)[0] == d1[0];
      assert PrefixRest(" ", d2)[0] == d2[0];
    }
    assert d1[i] == d2[i];
    DisplayedDigitEqual(p1[i], p2[i]);
  }

  lemma DisplayedDigitEqual(x: nat, y: nat)
    requires NatToString(x + 1) == NatToString(y + 1)
    ensures x == y
  {
    ParseNatToString(x + 1);
    ParseNatToString(y + 1);
  }

  /** Splitting a ", "-join of digit strings at the commas gives the digit strings, all but the first with their space. */
  lemma CommaPieces(ds: seq<string>)
    requires |ds| > 0
    requires forall i :: 0 <= i < |ds| ==> OnlyChars(ds[i], DecimalDigits)
    ensures SplitOn(JoinWith(", ", ds), ',') == PrefixRest(" ", ds)
  {
    JoinMovePrefix(',', " ", ds);
    NoCommaPieces(ds);
    assert ", " == [','] + " ";
    SplitJoin(PrefixRest(" ", ds), ',');
  }

  /** The join of displayed digits is empty exactly when there are no digits. */
  lemma NonEmptyJoin(ds: seq<string>)
    requires forall i :: 0 <= i < |ds| ==> |ds[i]| > 0
    ensures JoinWith(", ", ds) == "" <==> |ds| == 0
  {
    if |ds| > 1 {
      assert |JoinWith(", ", ds)| >= |ds[0]|;
    }
  }

  /** No displayed digit, with or without the leading space, holds a comma. */
  lemma NoCommaPieces(ds: seq<string>)
    requires forall i :: 0 <= i < |ds| ==> OnlyChars(ds[i], DecimalDigits)
    ensures forall i :: 0 <= i < |ds| ==> ',' !in PrefixRest(" ", ds)[i]
  {
    forall i | 0 <= i < |ds|
      ensures ',' !in PrefixRest(" ", ds)[i]
    {
      if i > 0 {
        assert PrefixRest(" ", ds)[i] == " " + ds[i];
      }
    }
  }
}

=== FILE: score.dfy ===
/**
  `generate_score`: the sixteen digits choose one fragment per measure from
  the two tables, the fragments are looked up in the template's notes map,
  and the score is the identified header, the three separators, the two
  voices built from the same fragments, and the footer.
 */
module Score {
  import opened Text
  import opened Errors
  import opened Voice
  import opened Template
  import Digits
  import Fragments
  import Header

  /** Digits that can index the tables: sixteen of them, each at most 10. */
  predicate ValidParts(parts: seq<nat>)
  {
    |parts| == Digits.Width && Digits.IsDigits(parts)
  }

  /** Digits 0 to 6 through the first-half table, the position being the measure. */
  function FirstHalfIds(parts: seq<nat>): (ids: seq<string>)
    requires ValidParts(parts)
    ensures |ids| == 7
  {
    seq(7, i requires 0 <= i < 7 => Fragments.FirstHalfFragment(i, parts[i]))
  }

  /** Digit 7 through column 7 of the first-half table, as its two endings. */
  function RepeatIds(parts: seq<nat>): (ids: seq<string>)
    requires ValidParts(parts)
    ensures |ids| == 2
  {
    var endings := Fragments.RepeatEndings(parts[7]);
    [endings.0, endings.1]
  }

  /** Digits 8 to 15 through the second-half table, the measure being the position minus 8. */
  function SecondHalfIds(parts: seq<nat>): (ids: seq<string>)
    requires ValidParts(parts)
    ensures |ids| == 8
  {
    seq(8, i requires 0 <= i < 8 => Fragments.SecondHalfFragment(i, parts[8 + i]))
  }

  /** Every identifier the score needs, in the order the source looks them up. */
  function ScoreIds(parts: seq<nat>): seq<string>
    requires ValidParts(parts)
  {
    FirstHalfIds(parts) + RepeatIds(parts) + SecondHalfIds(parts)
  }

  /** The measures of the identifiers, in order; the first identifier that is not a key stops the lookup. */
  function LookupAll(ids: seq<string>, notes: map<string, Measure>): (r: Result<seq<Measure>>)
    ensures r.Success? <==> forall i :: 0 <= i < |ids| ==> ids[i] in notes
    ensures r.Success? ==> |r.value| == |ids| && forall i :: 0 <= i < |ids| ==> r.value[i] == notes[ids[i]]
    ensures r.Failure? ==> FirstMissingIn(ids, notes, r.error)
  {
    if |ids| == 0 then Success([])
    else if ids[0] !in notes then
      assert FirstMissing(ids, notes, 0);
      Failure(FragmentNotFound(ids[0]))
    else
      var rest := LookupAll(ids[1..], notes);
      if rest.Failure? then
        var i: nat :| FirstMissing(ids[1..], notes, i) && rest.error == FragmentNotFound(ids[1..][i]);
        assert FirstMissing(ids, notes, i + 1);
        Failure(rest.error)
      else
        assert forall i :: 1 <= i < |ids| ==> ids[i] == ids[1..][i - 1];
        Success([notes[ids[0]]] + rest.value)
  }

  /** `ids[i]` is the first identifier that is not a key. */
  predicate FirstMissing(ids: seq<string>, notes: map<string, Measure>, i: nat)
  {
    i < |ids| && ids[i] !in notes && forall j :: 0 <= j < i ==> ids[j] in notes
  }

  /** What `generate_score` returns: the score, the digits and the number. */
  datatype Generated = Generated(score: string, parts: seq<nat>, number: nat)

  /** `generate_score(parts, number)` on a parsed template. */
  function GenerateScore(parts: seq<nat>, number: nat, t: Parsed): (r: Result<Generated>)
    requires ValidParts(parts)
    ensures r.Success? <==> forall i :: 0 <= i < |ScoreIds(parts)| ==> ScoreIds(parts)[i] in t.notes
    ensures r.Failure? ==> FirstMissingIn(ScoreIds(parts), t.notes, r.error)
    ensures r.Success? ==> r.value.parts == parts && r.value.number == number
  {
    var ms :- LookupAll(ScoreIds(parts), t.notes);
    var first, repeat, second := ms[..7], ms[7..9], ms[9..];
    Success(Generated(Assemble(t, number, parts, first, repeat, second), parts, number))
  }

  /** The identified header, the separators and the two voices, in score order. */
  function Assemble(t: Parsed, number: nat, parts: seq<nat>, first: seq<Measure>, repeat: seq<Measure>, second: seq<Measure>): string
    requires |repeat| >= 2
  {
    Header.UpdateHeader(t.header, number, parts) + t.sep1
    + GeneratePart(first, repeat, second, 0, t.spacer) + t.sep2
    + GeneratePart(first, repeat, second, 1, t.spacer) + t.sep3 + t.footer
  }

  /** `e` is the failure for the first missing identifier of `ids`. */
  ghost predicate FirstMissingIn(ids: seq<string>, notes: map<string, Measure>, e: Error)
  {
    exists i: nat :: FirstMissing(ids, notes, i) && e == FragmentNotFound(ids[i])
  }

  /** Every identifier the digits choose is a key of the notes map. */
  predicate AllFound(parts: seq<nat>, notes: map<string, Measure>)
    requires ValidParts(parts)
  {
    (forall i :: 0 <= i < 7 ==> Fragments.FirstHalfFragment(i, parts[i]) in notes)
    && Fragments.RepeatEndings(parts[7]).0 in notes
    && Fragments.RepeatEndings(parts[7]).1 in notes
    && (forall j :: 8 <= j < 16 ==> Fragments.SecondHalfFragment(j - 8, parts[j]) in notes)
  }

  /** The first-half measures the digits choose: measure i is row parts[i] of column i. */
  function ChosenFirst(parts: seq<nat>, notes: map<string, Measure>): (ms: seq<Measure>)
    requires ValidParts(parts) && AllFound(parts, notes)
    ensures |ms| == 7
  {
    seq(7, i requires 0 <= i < 7 => notes[Fragments.FirstHalfFragment(i, parts[i])])
  }

  /** The two endings of measure 7 (the eighth): `<id>.1` and `<id>.2` for row parts[7] of column 7. */
  function ChosenRepeat(parts: seq<nat>, notes: map<string, Measure>): (ms: seq<Measure>)
    requires ValidParts(parts) && AllFound(parts, notes)
    ensures |ms| == 2
  {
    [notes[Fragments.RepeatEndings(parts[7]).0], notes[Fragments.RepeatEndings(parts[7]).1]]
  }

  /** The second-half measures: measure i is row parts[8 + i] of column i of the second table. */
  function ChosenSecond(parts: seq<nat>, notes: map<string, Measure>): (ms: seq<Measure>)
    requires ValidParts(parts) && AllFound(parts, notes)
    ensures |ms| == 8
  {
    seq(8, i requires 0 <= i < 8 => notes[Fragments.SecondHalfFragment(i, parts[8 + i])])
  }

  /** Generation succeeds exactly when every chosen fragment is in the notes map. */
  lemma GenerateScoreSucceeds(parts: seq<nat>, number: nat, t: Parsed)
    requires ValidParts(parts)
    ensures GenerateScore(parts, number, t).Success? <==> AllFound(parts, t.notes)
  {
    IdsFound(parts, t.notes);
  }

  /** The identifier list holds the chosen fragments, in the order the source looks them up. */
  lemma ScoreIdsChosen(parts: seq<nat>)
    requires ValidParts(parts)
    ensures |ScoreIds(parts)| == 17
    ensures forall i :: 0 <= i < 7 ==> ScoreIds(parts)[i] == Fragments.FirstHalfFragment(i, parts[i])
    ensures ScoreIds(parts)[7] == Fragments.RepeatEndings(parts[7]).0
    ensures ScoreIds(parts)[8] == Fragments.RepeatEndings(parts[7]).1
    ensures forall j :: 9 <= j < 17 ==> ScoreIds(parts)[j] == Fragments.SecondHalfFragment(j - 9, parts[j - 1])
  {
  }

  /** The chosen identifiers determine the digits: each measure's column holds eleven different fragments. */
  lemma ScoreIdsInjective(p1: seq<nat>, p2: seq<nat>)
    requires ValidParts(p1) && ValidParts(p2)
    requires ScoreIds(p1) == ScoreIds(p2)
    ensures p1 == p2
  {
    ScoreIdsChosen(p1);
    ScoreIdsChosen(p2);
    forall i | 0 <= i < Digits.Width
      ensures p1[i] == p2[i]
    {
      if i < 7 {
        assert ScoreIds(p1)[i] == ScoreIds(p2)[i];
        Fragments.FirstHalfFragmentInjective(i, p1[i], p2[i]);
      } else if i == 7 {
        assert ScoreIds(p1)[7] == ScoreIds(p2)[7];
        Fragments.RepeatEndingsInjective(p1[7], p2[7]);
      } else {
        assert ScoreIds(p1)[i + 1] == ScoreIds(p2)[i + 1];
        Fragments.SecondHalfFragmentInjective(i - 8, p1[i], p2[i]);
      }
    }
  }

  /** Two different seeds below 11^16 choose different fragments for at least one measure. */
  lemma SeedsChooseDifferentFragments(n1: nat, n2: nat)
    requires n1 < Digits.Modulus && n2 < Digits.Modulus && n1 != n2
    ensures ValidParts(Digits.Parts(n1)) && ValidParts(Digits.Parts(n2))
    ensures ScoreIds(Digits.Parts(n1)) != ScoreIds(Digits.Parts(n2))
  {
    Digits.PartsCorrect(n1);
    Digits.PartsCorrect(n2);
    if ScoreIds(Digits.Parts(n1)) == ScoreIds(Digits.Parts(n2)) {
      ScoreIdsInjective(Digits.Parts(n1), Digits.Parts(n2));
    }
  }

  lemma IdsFound(parts: seq<nat>, notes: map<string, Measure>)
    requires ValidParts(parts)
    ensures (forall i :: 0 <= i < |ScoreIds(parts)| ==> ScoreIds(parts)[i] in notes) <==> AllFound(parts, notes)
  {
    var ids := ScoreIds(parts);
    ScoreIdsChosen(parts);
    if forall i :: 0 <= i < |ids| ==> ids[i] in notes {
      assert ids[7] in notes && ids[8] in notes;
      forall j | 8 <= j < 16
        ensures Fragments.SecondHalfFragment(j - 8, parts[j]) in notes
      {
        assert ids[j + 1] in notes;
      }
    }
    if AllFound(parts, notes) {
      forall i | 0 <= i < |ids|
        ensures ids[i] in notes
      {
        if 9 <= i {
          assert Fragments.SecondHalfFragment(i - 9, parts[i - 1]) in notes;
        }
      }
    }
  }

  /**
    A generated score is the identified header, the first separator, the
    upper voice, the second separator, the lower voice, the third separator
    and the footer; both voices are laid out line by line from the same
    chosen measures, each reading its own staff.
   */
  lemma GenerateScoreText(parts: seq<nat>, number: nat, t: Parsed)
    requires ValidParts(parts) && AllFound(parts, t.notes)
    ensures GenerateScore(parts, number, t).Success?
    ensures var f, r, s := ChosenFirst(parts, t.notes), ChosenRepeat(parts, t.notes), ChosenSecond(parts, t.notes);
            GenerateScore(parts, number, t).value.score
            == Header.UpdateHeader(t.header, number, parts) + t.sep1
               + JoinWith("\n", VoiceLines(f, r, s, 0, t.spacer)) + t.sep2
               + JoinWith("\n", VoiceLines(f, r, s, 1, t.spacer)) + t.sep3 + t.footer
  {
    GenerateScoreSucceeds(parts, number, t);
    var ms := LookupAll(ScoreIds(parts), t.notes).value;
    var f, r, s := ChosenFirst(parts, t.notes), ChosenRepeat(parts, t.notes), ChosenSecond(parts, t.notes);
    ChosenMeasures(parts, t.notes, ms);
    GeneratePartLines(f, r, s, 0, t.spacer);
    GeneratePartLines(f, r, s, 1, t.spacer);
  }

  /** The looked-up measures, cut at 7 and 9, are the chosen measures. */
  lemma ChosenMeasures(parts: seq<nat>, notes: map<string, Measure>, ms: seq<Measure>)
    requires ValidParts(parts) && AllFound(parts, notes)
    requires |ms| == 17 && forall i :: 0 <= i < 17 ==> ms[i] == notes[ScoreIds(parts)[i]]
    ensures ms[..7] == ChosenFirst(parts, notes)
    ensures ms[7..9] == ChosenRepeat(parts, notes)
    ensures ms[9..] == ChosenSecond(parts, notes)
  {
    ScoreIdsChosen(parts);
  }

  /**
    `generate_score` given only a seed: the digits of the seed, then the template
    parse, then the score. The seed comes back unchanged with its sixteen
    digits, which spell it modulo 11^16.
   */
  function GenerateFromSeed(n: nat, text: string, spans: seq<Span>, spacers: seq<string>, getNotes: string -> seq<Note>): (r: Result<Generated>)
    requires ValidSpansFrom(text, 0, spans)
    ensures |spans| != 3 ==> r == Failure(SectionCount(2 * |spans| + 1))
    ensures r.Success? ==> r.value.number == n && ValidParts(r.value.parts)
                           && Digits.Value(r.value.parts) == n % Digits.Modulus
  {
    var parts := Digits.Parts(n);
    Digits.PartsCorrect(n);
    var t :- ParseScore(text, spans, spacers, getNotes);
    GenerateScore(parts, n, t)
  }
}

=== FILE: template.dfy ===
/**
  `parse_score`: the template text is cut at the three landmark matches of
  its split pattern into header, first separator, upper staff, second
  separator, lower staff, third separator and footer; the notes of the two
  staves are paired into the fragment map; the spacer is the first run of
  blanks in front of a `\clef`.

  The regular expressions themselves are not modelled. The landmark
  matches are given as spans of the text, the `get_notes` scan as a
  function from a staff's text to its (identifier, text) entries, and the
  spacer scan as the list of its matches.
 */
module Template {
  import opened Text
  import opened Errors

  /** One match of the split pattern: the text from `start` up to, not including, `end`. */
  datatype Span = Span(start: nat, end: nat)

  /** Matches ordered left to right, each inside `text`, none overlapping and none before `pos`. */
  predicate ValidSpansFrom(text: string, pos: nat, spans: seq<Span>)
  {
    pos <= |text|
    && (forall i :: 0 <= i < |spans| ==> spans[i].start <= spans[i].end <= |text|)
    && (|spans| > 0 ==> pos <= spans[0].start)
    && (forall i :: 0 <= i < |spans| - 1 ==> spans[i].end <= spans[i + 1].start)
  }

  /**
    `re.split` with one capturing group, from `pos` on: the text before each
    match, the match itself, and finally the text after the last match.
   */
  function SplitFrom(text: string, pos: nat, spans: seq<Span>): (pieces: seq<string>)
    requires ValidSpansFrom(text, pos, spans)
    decreases |spans|
  {
    if |spans| == 0 then [text[pos..]]
    else
      var m := spans[0];
      [text[pos..m.start], text[m.start..m.end]] + SplitFrom(text, m.end, spans[1..])
  }

  /** The split of the whole text at the given matches. */
  function SplitAt(text: string, spans: seq<Span>): seq<string>
    requires ValidSpansFrom(text, 0, spans)
  {
    SplitFrom(text, 0, spans)
  }

  /** Concatenation of all pieces. */
  function Concat(pieces: seq<string>): string
  {
    if |pieces| == 0 then "" else pieces[0] + Concat(pieces[1..])
  }

  /**
    The split keeps every character: there are two pieces per match plus
    one, the odd pieces are the matches, and the pieces glue back to the text.
   */
  lemma {:induction false} SplitFromRejoins(text: string, pos: nat, spans: seq<Span>)
    requires ValidSpansFrom(text, pos, spans)
    ensures |SplitFrom(text, pos, spans)| == 2 * |spans| + 1
    ensures Concat(SplitFrom(text, pos, spans)) == text[pos..]
    ensures forall i :: 0 <= i < |spans| ==> SplitFrom(text, pos, spans)[2 * i + 1] == text[spans[i].start..spans[i].end]
    decreases |spans|
  {
    if |spans| > 0 {
      var m := spans[0];
      var rest := SplitFrom(text, m.end, spans[1..]);
      SplitFromRejoins(text, m.end, spans[1..]);
      var pieces := SplitFrom(text, pos, spans);
      assert pieces[1..][1..] == rest;
      assert text[pos..] == text[pos..m.start] + text[m.start..m.end] + text[m.end..];
      forall i | 0 <= i < |spans|
        ensures pieces[2 * i + 1] == text[spans[i].start..spans[i].end]
      {
        if i > 0 {
          assert pieces[2 * i + 1] == rest[2 * (i - 1) + 1];
          assert spans[1..][i - 1] == spans[i];
        }
      }
    }
  }

  lemma ConcatSeven(p: seq<string>)
    requires |p| == 7
    ensures Concat(p) == p[0] + p[1] + p[2] + p[3] + p[4] + p[5] + p[6]
  {
    assert Concat(p[6..]) == p[6] by { assert p[6..][1..] == []; }
    assert Concat(p[5..]) == p[5] + Concat(p[6..]) by { assert p[5..][1..] == p[6..]; }
    assert Concat(p[4..]) == p[4] + Concat(p[5..]) by { assert p[4..][1..] == p[5..]; }
    assert Concat(p[3..]) == p[3] + Concat(p[4..]) by { assert p[3..][1..] == p[4..]; }
    assert Concat(p[2..]) == p[2] + Concat(p[3..]) by { assert p[2..][1..] == p[3..]; }
    assert Concat(p[1..]) == p[1] + Concat(p[2..]) by { assert p[1..][1..] == p[2..]; }
  }

  /** The seven pieces of a split template. */
  datatype Sections = Sections(header: string, sep1: string, upper: string, sep2: string,
                               lower: string, sep3: string, footer: string)

  /** The unpacking of `re.split`'s result into seven names; any other count fails. */
  function SplitTemplate(text: string, spans: seq<Span>): (r: Result<Sections>)
    requires ValidSpansFrom(text, 0, spans)
    ensures r.Success? <==> |spans| == 3
    ensures r.Failure? ==> r.error == SectionCount(2 * |spans| + 1)
    ensures r.Success? ==> r.value.header + r.value.sep1 + r.value.upper + r.value.sep2
                           + r.value.lower + r.value.sep3 + r.value.footer == text
    ensures r.Success? ==> r.value.sep1 == text[spans[0].start..spans[0].end]
                           && r.value.sep2 == text[spans[1].start..spans[1].end]
                           && r.value.sep3 == text[spans[2].start..spans[2].end]
  {
    var pieces := SplitAt(text, spans);
    SplitFromRejoins(text, 0, spans);
    if |pieces| != 7 then Failure(SectionCount(|pieces|))
    else
      ConcatSeven(pieces);
      Success(Sections(pieces[0], pieces[1], pieces[2], pieces[3], pieces[4], pieces[5], pieces[6]))
  }

  /** One fragment of the notes map: the upper-staff and the lower-staff text of a measure. */
  datatype Measure = Measure(upper: string, lower: string)

  /** One entry of `get_notes`: a fragment identifier and the text of that measure. */
  datatype Note = Note(id: string, text: string)

  /** The upper and lower entries paired position by position, as many pairs as the shorter list has entries. */
  function Zip(upper: seq<Note>, lower: seq<Note>): (pairs: seq<(string, Measure)>)
    ensures |pairs| == if |upper| < |lower| then |upper| else |lower|
    ensures forall i :: 0 <= i < |pairs| ==> pairs[i] == (upper[i].id, Measure(upper[i].text, lower[i].text))
  {
    var n := if |upper| < |lower| then |upper| else |lower|;
    seq(n, i requires 0 <= i < n => (upper[i].id, Measure(upper[i].text, lower[i].text)))
  }

  /** A dict comprehension over pairs: entries are inserted left to right, so a later key overwrites an earlier one. */
  function ToMap(pairs: seq<(string, Measure)>): map<string, Measure>
  {
    if |pairs| == 0 then map[]
    else ToMap(pairs[..|pairs| - 1])[pairs[|pairs| - 1].0 := pairs[|pairs| - 1].1]
  }

  /** The notes map of `parse_score`. */
  function ZipNotes(upper: seq<Note>, lower: seq<Note>): map<string, Measure>
  {
    ToMap(Zip(upper, lower))
  }

  /** The keys of the dict are exactly the keys among the pairs. */
  lemma {:induction false} ToMapKeys(pairs: seq<(string, Measure)>, k: string)
    ensures k in ToMap(pairs) <==> exists j :: 0 <= j < |pairs| && pairs[j].0 == k
    decreases |pairs|
  {
    if |pairs| > 0 {
      var init := pairs[..|pairs| - 1];
      ToMapKeys(init, k);
      if exists j :: 0 <= j < |init| && init[j].0 == k {
        var j :| 0 <= j < |init| && init[j].0 == k;
        assert pairs[j].0 == k;
      }
      if exists j :: 0 <= j < |pairs| && pairs[j].0 == k {
        var j :| 0 <= j < |pairs| && pairs[j].0 == k;
        if j < |init| {
          assert init[j].0 == k;
        }
      }
    }
  }

  /** A key's value comes from its last pair. */
  lemma {:induction false} ToMapLast(pairs: seq<(string, Measure)>, j: nat)
    requires j < |pairs|
    requires forall l :: j < l < |pairs| ==> pairs[l].0 != pairs[j].0
    ensures pairs[j].0 in ToMap(pairs) && ToMap(pairs)[pairs[j].0] == pairs[j].1
    decreases |pairs|
  {
    if j < |pairs| - 1 {
      var init := pairs[..|pairs| - 1];
      assert forall l :: j < l < |init| ==> init[l].0 != init[j].0 by {
        forall l | j < l < |init|
          ensures init[l].0 != init[j].0
        {
          assert init[l] == pairs[l];
        }
      }
      ToMapLast(init, j);
      assert pairs[|pairs| - 1].0 != pairs[j].0;
    }
  }

  /**
    The notes map has a key for each identifier among the first
    min(|upper|, |lower|) upper-staff entries and no other; the lower
    staff's identifiers are never read.
   */
  lemma ZipNotesKeys(upper: seq<Note>, lower: seq<Note>, k: string)
    ensures k in ZipNotes(upper, lower)
            <==> exists j :: 0 <= j < |upper| && j < |lower| && upper[j].id == k
  {
    var pairs := Zip(upper, lower);
    ToMapKeys(pairs, k);
    if exists j :: 0 <= j < |upper| && j < |lower| && upper[j].id == k {
      var j :| 0 <= j < |upper| && j < |lower| && upper[j].id == k;
      assert pairs[j].0 == k;
    }
  }

  /**
    An identifier's entry pairs the texts at its last position among the
    zipped entries: a later duplicate overwrites an earlier one.
   */
  lemma ZipNotesValue(upper: seq<Note>, lower: seq<Note>, j: nat)
    requires j < |upper| && j < |lower|
    requires forall l :: j < l < |upper| && l < |lower| ==> upper[l].id != upper[j].id
    ensures upper[j].id in ZipNotes(upper, lower)
    ensures ZipNotes(upper, lower)[upper[j].id] == Measure(upper[j].text, lower[j].text)
  {
    var pairs := Zip(upper, lower);
    forall l | j < l < |pairs|
      ensures pairs[l].0 != pairs[j].0
    {
      assert pairs[l].0 == upper[l].id;
    }
    ToMapLast(pairs, j);
  }

  /** What `parse_score` returns. */
  datatype Parsed = Parsed(header: string, sep1: string, sep2: string, sep3: string, footer: string,
                           spacer: string, notes: map<string, Measure>)

  /**
    `parse_score`: `spans` are the matches of the split pattern,
    `spacers` the matches of the spacer pattern, and `getNotes` the scan
    of one staff's text for its fragments.
   */
  function ParseScore(text: string, spans: seq<Span>, spacers: seq<string>, getNotes: string -> seq<Note>): (r: Result<Parsed>)
    requires ValidSpansFrom(text, 0, spans)
    ensures r.Success? <==> |spans| == 3 && |spacers| > 0
    ensures |spans| != 3 ==> r == Failure(SectionCount(2 * |spans| + 1))
    ensures |spans| == 3 && |spacers| == 0 ==> r == Failure(SpacerMissing)
    ensures r.Success? ==> r.value.spacer == spacers[0]
  {
    var s :- SplitTemplate(text, spans);
    var notes := ZipNotes(getNotes(s.upper), getNotes(s.lower));
    if |spacers| == 0 then Failure(SpacerMissing)
    else Success(Parsed(s.header, s.sep1, s.sep2, s.sep3, s.footer, spacers[0], notes))
  }

  /**
    A parsed template returns exactly the header, separators and footer of
    the split, which with the two staves make up the text in order; its
    notes map pairs the two staves found between the separators.
   */
  lemma ParseScoreSections(text: string, spans: seq<Span>, spacers: seq<string>, getNotes: string -> seq<Note>)
    requires ValidSpansFrom(text, 0, spans)
    requires ParseScore(text, spans, spacers, getNotes).Success?
    ensures var p := ParseScore(text, spans, spacers, getNotes).value;
            var s := SplitTemplate(text, spans).value;
            p.header == s.header && p.sep1 == s.sep1 && p.sep2 == s.sep2
            && p.sep3 == s.sep3 && p.footer == s.footer
            && text == p.header + p.sep1 + s.upper + p.sep2 + s.lower + p.sep3 + p.footer
            && p.notes == ZipNotes(getNotes(s.upper), getNotes(s.lower))
  {
  }
}

=== FILE: text.dfy ===
/**
  The string operations the generator is built from: joining with a
  separator, the decimal text of a natural number, and replacing every
  occurrence of a non-empty pattern. A one-character split is defined too;
  the generator never splits text itself, but the split states the line
  layout of a voice and reads the identity text back.
 */
module Text {

  /** The elements of `xs` in order, with `sep` between neighbours. */
  function JoinWith(sep: string, xs: seq<string>): string
  {
    if |xs| == 0 then ""
    else if |xs| == 1 then xs[0]
    else xs[0] + sep + JoinWith(sep, xs[1..])
  }

  /** Joining two non-empty lists puts exactly one separator between them. */
  lemma {:induction false} JoinAppend(sep: string, a: seq<string>, b: seq<string>)
    requires |a| > 0 && |b| > 0
    ensures JoinWith(sep, a + b) == JoinWith(sep, a) + sep + JoinWith(sep, b)
    decreases |a|
  {
    if |a| == 1 {
      assert (a + b)[1..] == b;
    } else {
      assert (a + b)[1..] == a[1..] + b;
      JoinAppend(sep, a[1..], b);
    }
  }

  /** `xs[0]`, then every later element with `pre` in front of it. */
  function PrefixRest(pre: string, xs: seq<string>): (ys: seq<string>)
    ensures |ys| == |xs|
  {
    if |xs| == 0 then [] else [xs[0]] + seq(|xs| - 1, i requires 0 <= i < |xs| - 1 => pre + xs[i + 1])
  }

  /** Joining with a separator of several characters is joining with its first character after moving the rest into the elements. */
  lemma {:induction false} JoinMovePrefix(c: char, pre: string, xs: seq<string>)
    ensures JoinWith([c] + pre, xs) == JoinWith([c], PrefixRest(pre, xs))
    decreases |xs|
  {
    if |xs| >= 2 {
      JoinMovePrefix(c, pre, xs[1..]);
      var tail := PrefixRest(pre, xs[1..]);
      var moved := [pre + tail[0]] + tail[1..];
      assert PrefixRest(pre, xs)[1..] == moved;
      assert pre + JoinWith([c], tail) == JoinWith([c], moved);
    }
  }

  /** A join of at least two elements is the first element, the separator, and the join of the rest. */
  lemma JoinCons(sep: string, x: string, xs: seq<string>)
    requires |xs| > 0
    ensures JoinWith(sep, [x] + xs) == x + sep + JoinWith(sep, xs)
  {
    assert ([x] + xs)[1..] == xs;
  }

  /** Text in front of a join belongs to its first element. */
  lemma JoinPrependFirst(sep: string, p: string, xs: seq<string>)
    requires |xs| > 0
    ensures p + JoinWith(sep, xs) == JoinWith(sep, [p + xs[0]] + xs[1..])
  {
    if |xs| > 1 {
      assert ([p + xs[0]] + xs[1..])[1..] == xs[1..];
    }
  }

  /** `lines` with `suffix` added to its last element. */
  function AppendLast(lines: seq<string>, suffix: string): (r: seq<string>)
    requires |lines| > 0
    ensures |r| == |lines|
  {
    lines[..|lines| - 1] + [lines[|lines| - 1] + suffix]
  }

  /** Text after a join belongs to its last element. */
  lemma {:induction false} JoinAppendLast(sep: string, lines: seq<string>, suffix: string)
    requires |lines| > 0
    ensures JoinWith(sep, AppendLast(lines, suffix)) == JoinWith(sep, lines) + suffix
    decreases |lines|
  {
    if |lines| > 1 {
      JoinAppendLast(sep, lines[1..], suffix);
      assert AppendLast(lines, suffix)[1..] == AppendLast(lines[1..], suffix);
    }
  }

  /** Every character of `s` is in `allowed`. */
  predicate OnlyChars(s: string, allowed: set<char>)
  {
    forall c :: c in s ==> c in allowed
  }

  /** Every character of a join comes from an element or from the separator. */
  lemma {:induction false} JoinChars(sep: string, xs: seq<string>, allowed: set<char>)
    requires OnlyChars(sep, allowed)
    requires forall i :: 0 <= i < |xs| ==> OnlyChars(xs[i], allowed)
    ensures OnlyChars(JoinWith(sep, xs), allowed)
    decreases |xs|
  {
    if |xs| > 1 {
      JoinChars(sep, xs[1..], allowed);
    }
  }

  /** The pieces of `s` between occurrences of the separator `c`; there is always at least one. */
  function SplitOn(s: string, c: char): (pieces: seq<string>)
    ensures |pieces| >= 1
    ensures forall i :: 0 <= i < |pieces| ==> c !in pieces[i]
    decreases |s|
  {
    if |s| == 0 then [""]
    else if s[0] == c then [""] + SplitOn(s[1..], c)
    else
      var rest := SplitOn(s[1..], c);
      [[s[0]] + rest[0]] + rest[1..]
  }

  /** The lines of `s`: its pieces between newline characters. */
  function SplitLines(s: string): seq<string>
  {
    SplitOn(s, '\n')
  }

  /** Text without the separator is a single piece, and a separator after it starts the next piece. */
  lemma {:induction false} SplitOnCons(a: string, c: char, rest: string)
    requires c !in a
    ensures SplitOn(a, c) == [a]
    ensures SplitOn(a + [c] + rest, c) == [a] + SplitOn(rest, c)
    decreases |a|
  {
    if |a| > 0 {
      assert (a + [c] + rest)[1..] == a[1..] + [c] + rest;
      SplitOnCons(a[1..], c, rest);
      assert [a[0]] + a[1..] == a;
    } else {
      assert a + [c] + rest == [c] + rest;
      assert ([c] + rest)[1..] == rest;
    }
  }

  /** Text without the separator in front of a string joins the first piece. */
  lemma {:induction false} SplitOnPrefix(a: string, c: char, rest: string)
    requires c !in a
    ensures SplitOn(a + rest, c) == [a + SplitOn(rest, c)[0]] + SplitOn(rest, c)[1..]
    decreases |a|
  {
    if |a| > 0 {
      assert (a + rest)[1..] == a[1..] + rest;
      SplitOnPrefix(a[1..], c, rest);
      assert [a[0]] + (a[1..] + SplitOn(rest, c)[0]) == a + SplitOn(rest, c)[0];
    } else {
      var pieces := SplitOn(rest, c);
      assert a + rest == rest && a + pieces[0] == pieces[0];
      assert pieces == [pieces[0]] + pieces[1..];
    }
  }

  /** Splitting undoes joining with the same one-character separator when no element holds it. */
  lemma {:induction false} SplitJoin(xs: seq<string>, c: char)
    requires |xs| > 0
    requires forall i :: 0 <= i < |xs| ==> c !in xs[i]
    ensures SplitOn(JoinWith([c], xs), c) == xs
    decreases |xs|
  {
    SplitOnCons(xs[0], c, "");
    if |xs| > 1 {
      SplitJoin(xs[1..], c);
      SplitOnCons(xs[0], c, JoinWith([c], xs[1..]));
      assert xs == [xs[0]] + xs[1..];
    }
  }

  /** Splitting on newlines undoes joining with newlines when no line holds a newline. */
  lemma SplitJoinLines(lines: seq<string>)
    requires |lines| > 0
    requires forall i :: 0 <= i < |lines| ==> '\n' !in lines[i]
    ensures SplitLines(JoinWith("\n", lines)) == lines
  {
    SplitJoin(lines, '\n');
  }

  /** The decimal digit characters. */
  const DecimalDigits: set<char> := {'0', '1', '2', '3', '4', '5', '6', '7', '8', '9'}

  function DigitChar(d: nat): (c: char)
    requires d < 10
    ensures c in DecimalDigits
  {
    "0123456789"[d]
  }

  function DigitValue(c: char): nat
  {
    if '0' <= c <= '9' then c as nat - '0' as nat else 0
  }

  /** A digit's character reads back as the digit. */
  lemma DigitRoundTrip(d: nat)
    requires d < 10
    ensures DigitValue(DigitChar(d)) == d
  {
  }

  /** The decimal text of a natural number: its digits, most significant first, without leading zeros. */
  function NatToString(n: nat): (s: string)
    ensures |s| >= 1
    ensures OnlyChars(s, DecimalDigits)
    ensures s[0] == '0' ==> n == 0 && s == "0"
    decreases n
  {
    if n < 10 then [DigitChar(n)] else NatToString(n / 10) + [DigitChar(n % 10)]
  }

  /** Reads a string of decimal digits back as a number. */
  function ParseDecimal(s: string): nat
  {
    if |s| == 0 then 0 else 10 * ParseDecimal(s[..|s| - 1]) + DigitValue(s[|s| - 1])
  }

  /** The decimal rendering is read back as the same number. */
  lemma {:induction false} ParseNatToString(n: nat)
    ensures ParseDecimal(NatToString(n)) == n
    decreases n
  {
    var s := NatToString(n);
    if n >= 10 {
      ParseNatToString(n / 10);
      assert s[..|s| - 1] == NatToString(n / 10);
      assert DigitValue(DigitChar(n % 10)) == n % 10;
    } else {
      assert DigitValue(DigitChar(n)) == n;
      assert s[..0] == [];
    }
  }

  /** `pat` occurs in `s` starting at index `i`. */
  predicate OccursAt(s: string, pat: string, i: nat)
  {
    i + |pat| <= |s| && s[i..i + |pat|] == pat
  }

  ghost predicate Contains(s: string, pat: string)
  {
    exists i: nat :: OccursAt(s, pat, i)
  }

  /**
    Replacement of a non-empty pattern by `w`: scanning left to right,
    each occurrence that does not overlap an earlier replaced one becomes `w`.
   */
  function Replace(s: string, pat: string, w: string): string
    requires |pat| > 0
    decreases |s|
  {
    if |s| < |pat| then s
    else if s[..|pat|] == pat then w + Replace(s[|pat|..], pat, w)
    else [s[0]] + Replace(s[1..], pat, w)
  }

  /** An occurrence one character in is an occurrence in the tail. */
  lemma OccursShift(s: string, pat: string, i: nat)
    requires |s| > 0
    ensures OccursAt(s[1..], pat, i) <==> OccursAt(s, pat, i + 1)
  {
    if i + 1 + |pat| <= |s| {
      assert s[1..][i..i + |pat|] == s[i + 1..i + 1 + |pat|];
    }
  }

  /** A string without the pattern is returned unchanged. */
  lemma {:induction false} ReplaceAbsent(s: string, pat: string, w: string)
    requires |pat| > 0
    requires !Contains(s, pat)
    ensures Replace(s, pat, w) == s
    decreases |s|
  {
    if |s| >= |pat| {
      assert !OccursAt(s, pat, 0);
      forall i: nat
        ensures !OccursAt(s[1..], pat, i)
      {
        OccursShift(s, pat, i);
      }
      ReplaceAbsent(s[1..], pat, w);
      assert s == [s[0]] + s[1..];
    }
  }

  /** Text before the first occurrence is copied, the occurrence becomes `w`, and the rest is processed alone. */
  lemma {:induction false} ReplaceFirst(a: string, pat: string, b: string, w: string)
    requires |pat| > 0
    requires forall i: nat :: i < |a| ==> !OccursAt(a + pat + b, pat, i)
    ensures Replace(a + pat + b, pat, w) == a + w + Replace(b, pat, w)
    decreases |a|
  {
    var s := a + pat + b;
    if |a| == 0 {
      assert s == pat + b;
      assert s[..|pat|] == pat;
      assert s[|pat|..] == b;
    } else {
      var t := a[1..] + pat + b;
      assert s[1..] == t;
      assert !OccursAt(s, pat, 0);
      assert s[..|pat|] != pat by {
        assert s[0..0 + |pat|] == s[..|pat|];
      }
      forall i: nat | i < |a[1..]|
        ensures !OccursAt(t, pat, i)
      {
        OccursShift(s, pat, i);
      }
      ReplaceFirst(a[1..], pat, b, w);
      assert Replace(s, pat, w) == [s[0]] + Replace(t, pat, w);
      assert a == [a[0]] + a[1..];
    }
  }

  /**
    When `w` is non-empty and shares no character with the pattern, what
    `Replace` produces begins with a pattern-only prefix `q` only if its
    input did: the replacement text can never contribute to such a prefix.
   */
  lemma {:induction false} ReplacePrefix(t: string, pat: string, w: string, q: string)
    requires |pat| > 0 && |w| > 0
    requires forall c :: c in w ==> c !in pat
    requires forall c :: c in q ==> c in pat
    requires |q| <= |Replace(t, pat, w)| && Replace(t, pat, w)[..|q|] == q
    ensures |q| <= |t| && t[..|q|] == q
    decreases |t|
  {
    var r := Replace(t, pat, w);
    if |q| > 0 && |t| >= |pat| {
      // the first character of the output is q[0], a pattern character, so it is not w[0]
      assert q[0] in q && w[0] in w;
      assert r[0] != w[0];
      assert r == [t[0]] + Replace(t[1..], pat, w);
      assert Replace(t[1..], pat, w)[..|q| - 1] == q[1..];
      SuffixChars(q, 1);
      ReplacePrefix(t[1..], pat, w, q[1..]);
      assert t[0] == q[0];
      assert t[..|q|] == [t[0]] + t[1..][..|q| - 1];
      assert q == [q[0]] + q[1..];
    }
  }

  /** Every character of a suffix occurs in the whole. */
  lemma SuffixChars(s: string, k: nat)
    requires k <= |s|
    ensures forall c :: c in s[k..] ==> c in s
  {
    forall c | c in s[k..]
      ensures c in s
    {
      var j :| 0 <= j < |s[k..]| && s[k..][j] == c;
      assert s[k + j] == c;
    }
  }

  /**
    Replacing with text that shares no character with the pattern leaves no
    occurrence of the pattern behind.
   */
  lemma {:induction false} ReplaceRemovesAll(s: string, pat: string, w: string)
    requires |pat| > 0 && |w| > 0
    requires forall c :: c in w ==> c !in pat
    ensures !Contains(Replace(s, pat, w), pat)
    decreases |s|
  {
    var r := Replace(s, pat, w);
    if |s| < |pat| {
      forall i: nat
        ensures !OccursAt(r, pat, i)
      {
      }
    } else if s[..|pat|] == pat {
      ReplaceRemovesAll(s[|pat|..], pat, w);
      AfterReplacement(w, Replace(s[|pat|..], pat, w), pat);
    } else {
      ReplaceRemovesAll(s[1..], pat, w);
      NoMatchAtStart(s, pat, w);
      AfterKept(s[0], Replace(s[1..], pat, w), pat);
    }
  }

  /** A replacement followed by pattern-free text holds no pattern: a window starting in `w` begins with a non-pattern character. */
  lemma AfterReplacement(w: string, rest: string, pat: string)
    requires |pat| > 0
    requires forall c :: c in w ==> c !in pat
    requires !Contains(rest, pat)
    ensures !Contains(w + rest, pat)
  {
    var r := w + rest;
    forall i: nat | i + |pat| <= |r|
      ensures !OccursAt(r, pat, i)
    {
      if i < |w| {
        assert r[i] == w[i] && w[i] in w && pat[0] in pat;
        assert r[i..i + |pat|][0] != pat[0];
      } else {
        assert r[i..i + |pat|] == rest[i - |w|..i - |w| + |pat|];
        assert !OccursAt(rest, pat, i - |w|);
      }
    }
  }

  /** A kept character followed by pattern-free text holds the pattern at most at the very start. */
  lemma AfterKept(c: char, rest: string, pat: string)
    requires !Contains(rest, pat)
    requires !OccursAt([c] + rest, pat, 0)
    ensures !Contains([c] + rest, pat)
  {
    var r := [c] + rest;
    forall i: nat | 0 < i && i + |pat| <= |r|
      ensures !OccursAt(r, pat, i)
    {
      assert r[i..i + |pat|] == rest[i - 1..i - 1 + |pat|];
      assert !OccursAt(rest, pat, i - 1);
    }
  }

  /** When the text does not start with the pattern, neither does its replacement. */
  lemma NoMatchAtStart(s: string, pat: string, w: string)
    requires |pat| > 0 && |w| > 0
    requires forall c :: c in w ==> c !in pat
    requires |s| >= |pat| && s[..|pat|] != pat
    ensures Replace(s, pat, w) == [s[0]] + Replace(s[1..], pat, w)
    ensures !OccursAt(Replace(s, pat, w), pat, 0)
  {
    var r := Replace(s, pat, w);
    if |pat| <= |r| && r[..|pat|] == pat {
      ReplacePrefix(s, pat, w, pat);
      assert false;
    }
  }
}

=== FILE: voice.dfy ===
/**
  `generate_part`: the LilyPond text of one staff. The first-half measures
  sit inside a `\repeat volta 2` block, the two endings of measure 7 (the eighth)
  form the `\alternative`, the Trio mark follows, then the second-half
  measures and the final bar line. Every line starts with the spacer.
 */
module Voice {
  import opened Text
  import opened Template

  /** The text of staff `half` of a measure: 0 is the upper staff and 1 the lower. */
  function Staff(m: Measure, half: nat): string
    requires half < 2
  {
    if half == 0 then m.upper else m.lower
  }

  /** The texts of staff `half` of the measures, in order. */
  function Texts(ms: seq<Measure>, half: nat): (ts: seq<string>)
    requires half < 2
    ensures |ts| == |ms|
  {
    seq(|ms|, i requires 0 <= i < |ms| => Staff(ms[i], half))
  }

  const RepeatOpen: string := "\\repeat volta 2 {"
  const AlternativeOpen: string := "\\alternative {"
  const TrioMark: string := "| \\mark \"Trio\""
  const FinalBar: string := "\\bar \"|.\""

  /** One ending of the alternative block, `    { <text> | }`. */
  function Ending(text: string): string
  {
    "    { " + text + " | }"
  }

  /**
    `generate_part`: one voice's text, piece by piece in the order the
    source concatenates them.
   */
  function GeneratePart(first: seq<Measure>, repeat: seq<Measure>, second: seq<Measure>, half: nat, spacer: string): string
    requires |repeat| >= 2 && half < 2
  {
    spacer + RepeatOpen + "\n" + spacer
    + JoinWith("\n" + spacer, Texts(first, half))
    + "}" + "\n" + spacer
    + AlternativeOpen + "\n" + spacer
    + Ending(Staff(repeat[0], half))
    + "\n" + spacer
    + Ending(Staff(repeat[1], half))
    + "\n" + spacer
    + "}"
    + "\n" + spacer + TrioMark
    + "\n" + spacer
    + JoinWith("\n" + spacer, Texts(second, half))
    + "\n" + spacer + FinalBar
  }

  /** The spacer in front of each text; a lone spacer when there are none. */
  function Indented(spacer: string, xs: seq<string>): (lines: seq<string>)
    ensures |lines| == if |xs| == 0 then 1 else |xs|
    ensures |xs| > 0 ==> forall i :: 0 <= i < |xs| ==> lines[i] == spacer + xs[i]
  {
    if |xs| == 0 then [spacer] else seq(|xs|, i requires 0 <= i < |xs| => spacer + xs[i])
  }

  /**
    The voice as the list of its lines: the repeat opening, the first-half
    measures with `}` closing the last of them, the alternative block with
    its two endings, the Trio mark, the second-half measures and the final bar.
   */
  function VoiceLines(first: seq<Measure>, repeat: seq<Measure>, second: seq<Measure>, half: nat, spacer: string): (lines: seq<string>)
    requires |repeat| >= 2 && half < 2
    ensures |lines| == 7 + |Indented(spacer, Texts(first, half))| + |Indented(spacer, Texts(second, half))|
  {
    [spacer + RepeatOpen]
    + AppendLast(Indented(spacer, Texts(first, half)), "}")
    + AlternativeLines(Staff(repeat[0], half), Staff(repeat[1], half), spacer)
    + Indented(spacer, Texts(second, half))
    + [spacer + FinalBar]
  }

  /** The five lines from `\alternative {` to the Trio mark. */
  function AlternativeLines(a: string, b: string, spacer: string): (lines: seq<string>)
    ensures |lines| == 5
  {
    [spacer + AlternativeOpen, spacer + Ending(a), spacer + Ending(b), spacer + "}", spacer + TrioMark]
  }

  /** An indented join is the newline join of the indented lines. */
  lemma JoinIndented(spacer: string, xs: seq<string>)
    ensures spacer + JoinWith("\n" + spacer, xs) == JoinWith("\n", Indented(spacer, xs))
  {
    if |xs| > 0 {
      JoinMovePrefix('\n', spacer, xs);
      var ys := PrefixRest(spacer, xs);
      JoinPrependFirst("\n", spacer, ys);
      assert Indented(spacer, xs) == [spacer + ys[0]] + ys[1..];
    }
  }

  lemma JoinAlternative(a: string, b: string, spacer: string)
    ensures JoinWith("\n", AlternativeLines(a, b, spacer))
         == spacer + AlternativeOpen + "\n" + spacer + Ending(a) + "\n" + spacer + Ending(b) + "\n" + spacer + "}" + "\n" + spacer + TrioMark
  {
    JoinFiveLines(spacer + AlternativeOpen, spacer + Ending(a), spacer + Ending(b), spacer + "}", spacer + TrioMark);
  }

  lemma JoinFiveLines(l0: string, l1: string, l2: string, l3: string, l4: string)
    ensures JoinWith("\n", [l0, l1, l2, l3, l4]) == l0 + "\n" + l1 + "\n" + l2 + "\n" + l3 + "\n" + l4
  {
    assert [l0, l1, l2, l3, l4] == [l0] + ([l1] + ([l2] + ([l3] + [l4])));
    JoinCons("\n", l3, [l4]);
    JoinCons("\n", l2, [l3] + [l4]);
    JoinCons("\n", l1, [l2] + ([l3] + [l4]));
    JoinCons("\n", l0, [l1] + ([l2] + ([l3] + [l4])));
  }

  lemma JoinFive(A: seq<string>, B: seq<string>, C: seq<string>, D: seq<string>, E: seq<string>)
    requires |A| > 0 && |B| > 0 && |C| > 0 && |D| > 0 && |E| > 0
    ensures JoinWith("\n", A + B + C + D + E)
         == JoinWith("\n", A) + "\n" + JoinWith("\n", B) + "\n" + JoinWith("\n", C) + "\n" + JoinWith("\n", D) + "\n" + JoinWith("\n", E)
  {
    JoinAppend("\n", A, B);
    JoinAppend("\n", A + B, C);
    JoinAppend("\n", A + B + C, D);
    JoinAppend("\n", A + B + C + D, E);
  }

  /** The concatenation of `generate_part`, regrouped line by line. */
  lemma Regroup(sp: string, r: string, jf: string, al: string, ea: string, eb: string, tm: string, js: string, fb: string)
    ensures sp + r + "\n" + sp + jf + "}" + "\n" + sp + al + "\n" + sp + ea + "\n" + sp + eb + "\n" + sp + "}" + "\n" + sp + tm + "\n" + sp + js + "\n" + sp + fb
         == (sp + r) + "\n" + (sp + jf + "}") + "\n"
          + (sp + al + "\n" + sp + ea + "\n" + sp + eb + "\n" + sp + "}" + "\n" + sp + tm) + "\n"
          + (sp + js) + "\n" + (sp + fb)
  {
    var h := sp + r + "\n" + sp + jf + "}" + "\n";
    RegroupMiddle(h, sp, al, ea, eb, tm);
    RegroupEnds(sp, r, jf, sp + al + "\n" + sp + ea + "\n" + sp + eb + "\n" + sp + "}" + "\n" + sp + tm, js, fb);
  }

  lemma RegroupMiddle(h: string, sp: string, al: string, ea: string, eb: string, tm: string)
    ensures h + sp + al + "\n" + sp + ea + "\n" + sp + eb + "\n" + sp + "}" + "\n" + sp + tm
         == h + (sp + al + "\n" + sp + ea + "\n" + sp + eb + "\n" + sp + "}" + "\n" + sp + tm)
  {
    var x1 := sp + al + "\n" + sp + ea + "\n";
    var x2 := sp + eb + "\n" + sp + "}" + "\n" + sp + tm;
    assert h + sp + al + "\n" + sp + ea + "\n" == h + x1;
    assert h + x1 + sp + eb + "\n" + sp + "}" + "\n" + sp + tm == (h + x1) + x2;
    assert x1 + sp + eb + "\n" + sp + "}" + "\n" + sp + tm == x1 + x2;
  }

  lemma RegroupEnds(sp: string, r: string, jf: string, x: string, js: string, fb: string)
    ensures sp + r + "\n" + sp + jf + "}" + "\n" + x + "\n" + sp + js + "\n" + sp + fb
         == (sp + r) + "\n" + (sp + jf + "}") + "\n" + x + "\n" + (sp + js) + "\n" + (sp + fb)
  {
  }

  /** `generate_part` is exactly the newline join of the voice's lines. */
  lemma GeneratePartLines(first: seq<Measure>, repeat: seq<Measure>, second: seq<Measure>, half: nat, spacer: string)
    requires |repeat| >= 2 && half < 2
    ensures GeneratePart(first, repeat, second, half, spacer) == JoinWith("\n", VoiceLines(first, repeat, second, half, spacer))
  {
    var f, s := Texts(first, half), Texts(second, half);
    var a, b := Staff(repeat[0], half), Staff(repeat[1], half);
    var A := [spacer + RepeatOpen];
    var B := AppendLast(Indented(spacer, f), "}");
    var C := AlternativeLines(a, b, spacer);
    var D := Indented(spacer, s);
    var E := [spacer + FinalBar];
    JoinFive(A, B, C, D, E);
    JoinIndented(spacer, f);
    JoinAppendLast("\n", Indented(spacer, f), "}");
    JoinIndented(spacer, s);
    JoinAlternative(a, b, spacer);
    var jf, js := JoinWith("\n" + spacer, f), JoinWith("\n" + spacer, s);
    var jb := spacer + jf + "}";
    var jc := spacer + AlternativeOpen + "\n" + spacer + Ending(a) + "\n" + spacer + Ending(b) + "\n" + spacer + "}" + "\n" + spacer + TrioMark;
    assert JoinWith("\n", B) == jb;
    assert JoinWith("\n", C) == jc;
    assert JoinWith("\n", D) == spacer + js;
    Regroup(spacer, RepeatOpen, jf, AlternativeOpen, Ending(a), Ending(b), TrioMark, js, FinalBar);
  }

  /** No newline inside. */
  predicate SingleLine(s: string)
  {
    '\n' !in s
  }

  /** Every fragment text of staff `half` is a single line. */
  predicate SingleLineTexts(ms: seq<Measure>, half: nat)
    requires half < 2
  {
    forall i :: 0 <= i < |ms| ==> SingleLine(Staff(ms[i], half))
  }

  /**
    With a single-line spacer and single-line fragment texts, splitting the
    voice at newlines gives back exactly its lines: the first-half texts on
    lines 1.., the endings, the Trio mark and the second-half texts, each
    behind the spacer.
   */
  lemma VoiceSplitsIntoLines(first: seq<Measure>, repeat: seq<Measure>, second: seq<Measure>, half: nat, spacer: string)
    requires |repeat| >= 2 && half < 2
    requires SingleLine(spacer)
    requires SingleLineTexts(first, half) && SingleLineTexts(repeat, half) && SingleLineTexts(second, half)
    ensures SplitLines(GeneratePart(first, repeat, second, half, spacer)) == VoiceLines(first, repeat, second, half, spacer)
  {
    GeneratePartLines(first, repeat, second, half, spacer);
    var lines := VoiceLines(first, repeat, second, half, spacer);
    forall i | 0 <= i < |lines|
      ensures '\n' !in lines[i]
    {
      LineIsSingle(first, repeat, second, half, spacer, i);
    }
    SplitJoinLines(lines);
  }

  lemma LineIsSingle(first: seq<Measure>, repeat: seq<Measure>, second: seq<Measure>, half: nat, spacer: string, i: nat)
    requires |repeat| >= 2 && half < 2
    requires SingleLine(spacer)
    requires SingleLineTexts(first, half) && SingleLineTexts(repeat, half) && SingleLineTexts(second, half)
    requires i < |VoiceLines(first, repeat, second, half, spacer)|
    ensures SingleLine(VoiceLines(first, repeat, second, half, spacer)[i])
  {
    var f, s := Texts(first, half), Texts(second, half);
    var a, b := Staff(repeat[0], half), Staff(repeat[1], half);
    var B := AppendLast(Indented(spacer, f), "}");
    var C := AlternativeLines(a, b, spacer);
    var D := Indented(spacer, s);
    var line := VoiceLines(first, repeat, second, half, spacer)[i];
    assert SingleLine(Staff(repeat[0], half)) && SingleLine(Staff(repeat[1], half));
    if i == 0 {
      SingleLineConcat(spacer, RepeatOpen);
    } else if i <= |B| {
      var k := i - 1;
      assert line == B[k];
      var ind := Indented(spacer, f);
      if |f| > 0 {
        assert SingleLine(f[k]) by { assert f[k] == Staff(first[k], half); }
        SingleLineConcat(spacer, f[k]);
        assert ind[k] == spacer + f[k];
      }
      if k == |B| - 1 {
        SingleLineConcat(ind[k], "}");
      } else {
        assert B[k] == ind[k];
      }
    } else if i <= |B| + 5 {
      var k := i - 1 - |B|;
      assert line == C[k];
      SingleLineConcat(spacer, AlternativeOpen);
      SingleLineConcat("    { " + a, " | }");
      SingleLineConcat("    { ", a);
      SingleLineConcat(spacer, Ending(a));
      SingleLineConcat("    { " + b, " | }");
      SingleLineConcat("    { ", b);
      SingleLineConcat(spacer, Ending(b));
      SingleLineConcat(spacer, "}");
      SingleLineConcat(spacer, TrioMark);
    } else if i <= |B| + 5 + |D| {
      var k := i - 1 - |B| - 5;
      assert line == D[k];
      if |s| > 0 {
        assert SingleLine(s[k]) by { assert s[k] == Staff(second[k], half); }
        SingleLineConcat(spacer, s[k]);
      }
    } else {
      assert line == spacer + FinalBar;
      SingleLineConcat(spacer, FinalBar);
    }
  }

  lemma SingleLineConcat(x: string, y: string)
    requires SingleLine(x) && SingleLine(y)
    ensures SingleLine(x + y)
  {
  }

  /** A voice reads only staff `half` of each measure: measures that agree on that staff give the same text. */
  lemma VoiceReadsOneStaff(first: seq<Measure>, repeat: seq<Measure>, second: seq<Measure>,
                           first': seq<Measure>, repeat': seq<Measure>, second': seq<Measure>, half: nat, spacer: string)
    requires |repeat| >= 2 && |repeat'| >= 2 && half < 2
    requires |first| == |first'| && |second| == |second'|
    requires forall i :: 0 <= i < |first| ==> Staff(first[i], half) == Staff(first'[i], half)
    requires forall i :: 0 <= i < |second| ==> Staff(second[i], half) == Staff(second'[i], half)
    requires Staff(repeat[0], half) == Staff(repeat'[0], half) && Staff(repeat[1], half) == Staff(repeat'[1], half)
    ensures GeneratePart(first, repeat, second, half, spacer) == GeneratePart(first', repeat', second', half, spacer)
  {
    assert Texts(first, half) == Texts(first', half);
    assert Texts(second, half) == Texts(second', half);
  }
}
